=== FILE: README.md ===
# SistemaStraming, modelled in Dafny

SistemaStraming is a live-streaming system. An Android app captures the camera and pushes
RTMP to a server. The app also chats over Socket.IO. A Node.js web server counts the viewers
of each stream and broadcasts the counts. This project models the deterministic bookkeeping
of both sides as immutable datatypes and pure transitions, and proves what that bookkeeping
promises.

| file | module | what it models |
|---|---|---|
| `runtime.dfy` | `Runtime` | the Kotlin/JVM library behaviour the app relies on: `isBlank`, `ifBlank`, `take`, `takeLast`, `Long` division and remainder (truncating toward zero), `Long.toString`, `%02d` |
| `presence.dfy` | `Presence` | the server's viewer-presence registry (`streamViewers`, `streamStats`), the `join-stream`, `leave-stream` and `disconnect` handlers, and the `/api/viewers` route |
| `chat.dfy` | `Chat` | the app's `ChatManager`: bounded message buffer, viewer info, username, stream key, outgoing requests |
| `stream_config.dfy` | `Config` | `StreamConfig`, its full URL, the four quality presets, `StreamState`, `StreamStats` |
| `stream_manager.dfy` | `Manager` | the `StreamManager` state machine: RTMP callbacks, start, stop, mute, duration, release |
| `dashboard.dfy` | `Dashboard` | the dashboard's `formatDuration` and kbps arithmetic |
| `streaming_screen.dfy` | `Screen` | the streaming screen: quality-name selection, 30-sample history windows, effects keyed on the stream state, the start/stop button, its copy of `formatDuration` |
| `theme.dfy` | `Theme` | the `ThemeManager` preferences: read defaults, setters, toggles |

Every server handler returns the new registry together with the `viewer-count` broadcasts
it emits, in emission order. A JavaScript `Map` iterates in insertion order, so the registry
also records the order in which rooms were created. The disconnect sweep walks the rooms in
that order.

The registry invariant `Presence.Valid` says:
- every room has statistics;
- no room's set is empty;
- every recorded count equals its room's size, and is 0 for an emptied room;
- no count exceeds its peak.

`Presence.RunPreserves` proves that any sequence of joins, leaves and disconnects keeps this
invariant. The same lemma proves that no peak goes down, no start time changes, and every
broadcast reports a count no larger than its peak.

What the server code does at the edges:
- When a room empties, only `streamViewers` loses the key (server.js:161-163). The
  `streamStats` entry keeps its peak and start time, with count 0, and a later join continues
  from it (server.js:98-104; `Presence.EmptiedRoomKeepsHistory`). The route without a key
  therefore still lists the emptied room, with 0 viewers (server.js:72-78).
- `handleViewerLeave` does nothing, and emits nothing, for a key with no room
  (server.js:144).
- The server relays no chat messages, so chat is modelled on the client only.
- In `/api/viewers/:key` the spread of the statistics comes after `viewers`
  (server.js:69), so the reported count is the recorded `stats.viewers`. On a valid registry
  that equals the set size (`Presence.StreamSnapshot`).
- The empty string is falsy (server.js:62), so `/api/viewers/` with an empty key answers the
  all-streams form.
- The all-streams answer is built in a plain object literal (server.js:72-76). Assigning to
  its `__proto__` property replaces the prototype, so a stream keyed `__proto__` is not in the
  answer (`Presence.AllSnapshots`).

The app holds two different default server URLs. `StreamConfig` uses
`rtmp://3.134.159.236:1935/live` (`Config.DefaultRtmpUrl`). `ThemeManager` uses
`rtmp://streamingpe.myvnc.com:1935/live` (`Theme.DefaultRtmpUrl`). The screen passes its own URL field to `startStreaming`
(StreamingScreen.kt:541). Every edit of the field is also written to the store (StreamingScreen.kt:383-387),
and a change of the stored value is copied back into the field (StreamingScreen.kt:175). The
store keeps the myvnc default in place of a blank URL (ThemeManager.kt:145). So clearing the
field normally brings the default back into it. The field stays empty only when the store
already held the default and the field was emptied in a single edit: the stored value does not
change then, and the screen streams to `"/" + key`. `Screen.StartStop` therefore takes the
screen's URL as a parameter, not the stored preference.

## Model

| member | source | states |
|---|---|---|
| `Presence.Join` | PlataformaSteaming/server.js:88-123 | the socket is added to the room, other rooms are untouched; statistics are created with start time `now` only when absent, otherwise the start time is kept; the count becomes the set size and the peak the larger of old peak and size; one `viewer-count` with those values is emitted; a new room goes last in the iteration order and an existing room keeps its place |
| `Presence.JoinPreservesValid` | PlataformaSteaming/server.js:92-112 | a join keeps the registry invariant (counts equal set sizes, peak at least count, no empty set, every room has statistics) and never lowers a peak or changes a start time |
| `Presence.JoinIdempotent` | PlataformaSteaming/server.js:92-95 | joining again with a socket already in the room leaves the registry as it was (the set is a set: no double counting) |
| `Presence.Leave` | PlataformaSteaming/server.js:143-165 | a key with no room changes nothing and emits nothing; otherwise the socket is removed (a no-op for a non-member), the count becomes the set size, the peak is untouched, one `viewer-count` carries count and peak, and an emptied room's set is deleted while its statistics stay; only an emptied room leaves the iteration order, every other key keeping its place |
| `Presence.LeavePreservesValid` | PlataformaSteaming/server.js:143-165 | a leave keeps the registry invariant and changes no peak, start time or statistics key |
| `Presence.EmptiedRoomKeepsHistory` | PlataformaSteaming/server.js:161-163 | when the last viewer leaves, the room disappears but its statistics remain with count 0, and a later join keeps the first start time and the old peak |
| `Presence.Without` | PlataformaSteaming/server.js:161-163 | deleting a key from the insertion order removes exactly that one position, leaving every other key in place; an absent key changes nothing; the order stays duplicate-free |
| `Presence.Sweep` | PlataformaSteaming/server.js:135-139 | the sweep emits at most one broadcast per visited room, keeps the set of streams with statistics, and leaves every room it does not visit as it was |
| `Presence.Disconnect` | PlataformaSteaming/server.js:131-140 | a disconnect emits at most one broadcast per room, keeps the set of streams with statistics, and touches only rooms in the registry's order |
| `Presence.Watched` | PlataformaSteaming/server.js:135-139 | the rooms the disconnect sweep acts on are exactly those whose set holds the socket, each once |
| `Presence.SweepMembers` | PlataformaSteaming/server.js:135-139 | sweeping a duplicate-free list of rooms removes the socket from exactly those rooms and leaves the others alone |
| `Presence.SweepEvents` | PlataformaSteaming/server.js:135-139 | the sweep emits one broadcast per room that held the socket, in iteration order, with the room's new count and its peak |
| `Presence.SweepKeepsState` | PlataformaSteaming/server.js:135-139 | the sweep keeps the registry invariant and all peaks and start times |
| `Presence.DisconnectKeepsState` | PlataformaSteaming/server.js:131-140 | a disconnect keeps the registry invariant and all peaks and start times |
| `Presence.DisconnectMembers` | PlataformaSteaming/server.js:131-140 | after a disconnect the socket is in no room, and every other socket is in exactly the rooms it was in |
| `Presence.DisconnectEvents` | PlataformaSteaming/server.js:131-140 | a disconnect processes exactly the rooms that held the socket, once each, and emits for each its new count and unchanged peak |
| `Presence.DisconnectSane` | PlataformaSteaming/server.js:131-140 | a disconnect keeps the invariant and broadcasts no count above its peak |
| `Presence.ApplyPreserves` | PlataformaSteaming/server.js:88-140 | any one handler keeps the invariant, keeps statistics history and broadcasts counts bounded by their peaks |
| `Presence.RunPreserves` | PlataformaSteaming/server.js:88-165 | from a valid registry, any sequence of joins, leaves and disconnects keeps the invariant, never lowers a peak or loses a start time, and never broadcasts a count above its peak |
| `Presence.HistoryKeptTransitive` | PlataformaSteaming/server.js:98-112 | peaks only grow and start times stay fixed across any chain of steps |
| `Presence.StreamSnapshot` | PlataformaSteaming/server.js:62-70 | the one-stream answer reports the recorded count, peak and start time, or 0, 0 and null for an unknown key; on a valid registry the count is the room's size |
| `Presence.AllSnapshots` | PlataformaSteaming/server.js:71-80 | the all-streams answer lists every key that has statistics, emptied rooms included, except `__proto__`, which the plain object swallows; the count is taken from the current set size |
| `Presence.ViewersAgree` | PlataformaSteaming/server.js:59-81 | on a consistent registry the one-stream answer for a key equals that key's entry in the all-streams answer, and a key without statistics is absent there and answered with zeroes |
| `Presence.Viewers` | PlataformaSteaming/server.js:59-81 | a non-empty key selects the one-stream answer; a missing or empty key selects the all-streams answer |
| `Presence.Scenario` | PlataformaSteaming/server.js:88-165 | A and B join, B leaves, C joins, A disconnects: the broadcast counts are 1, 2, 1, 2, 1, the peak climbs to 2 and stays there, and the room keeps its first start time |
| `Chat.Append` | Streaming/app/src/main/java/com/example/streaming/chat/ChatManager.kt:116-122 | the new message goes last; below 100 messages nothing is dropped, at 100 the oldest is dropped, so a bounded buffer stays within 100 |
| `Chat.ReceivedKeepsLatest` | Streaming/app/src/main/java/com/example/streaming/chat/ChatManager.kt:116-122 | after any sequence of arrivals at a buffer of at most 100, the buffer is exactly the latest 100 of its old contents followed by the arrivals, oldest first |
| `Chat.ClearThenReceive` | Streaming/app/src/main/java/com/example/streaming/chat/ChatManager.kt:116-122 | after `clearMessages` the buffer is exactly the latest 100 of the messages that arrived since |
| `Chat.Decode` | Streaming/app/src/main/java/com/example/streaming/chat/ChatManager.kt:107-114 | a payload decodes exactly when it has a username and a message; a missing id defaults to the first clock reading and a missing timestamp to the second; the message is the app's own exactly when its username is the current one |
| `Chat.ReceiveChat` | Streaming/app/src/main/java/com/example/streaming/chat/ChatManager.kt:105-128 | a non-object or undecodable payload changes nothing; a decodable one is appended to the buffer; the buffer stays within 100 |
| `Chat.ReceiveViewerCount` | Streaming/app/src/main/java/com/example/streaming/chat/ChatManager.kt:131-143 | the viewer info is replaced as a whole, missing fields becoming 0, 0 and the current stream key |
| `Chat.ServerCountsReceived` | Streaming/app/src/main/java/com/example/streaming/chat/ChatManager.kt:131-143 | any broadcast the server emits in any run from a consistent registry installs exactly its own count, peak and key in the client, with the count at most the peak |
| `Chat.Join` | Streaming/app/src/main/java/com/example/streaming/chat/ChatManager.kt:161-165 | the current stream key becomes the argument, nothing else changes, and one join request is sent |
| `Chat.Leave` | Streaming/app/src/main/java/com/example/streaming/chat/ChatManager.kt:170-173 | the state is unchanged (the current key is kept) and one leave request is sent |
| `Chat.JoinThenLeave` | Streaming/app/src/main/java/com/example/streaming/chat/ChatManager.kt:161-173 | joining and then leaving a key sends a join and a leave for that key, and the key stays remembered |
| `Chat.JoinAddresses` | Streaming/app/src/main/java/com/example/streaming/chat/ChatManager.kt:161-186 | after a join, a sent message goes to the joined key, and a count that names no key is filed under it |
| `Chat.SetUsername` | Streaming/app/src/main/java/com/example/streaming/chat/ChatManager.kt:196-198 | the username becomes the argument, or "Android User" when it is blank, so it is never blank; nothing else changes |
| `Chat.ClearMessages` | Streaming/app/src/main/java/com/example/streaming/chat/ChatManager.kt:203-205 | the buffer is emptied and nothing else changes |
| `Chat.SendMessage` | Streaming/app/src/main/java/com/example/streaming/chat/ChatManager.kt:178-191 | a blank message changes nothing and sends nothing; otherwise the username is stored as `setUsername` would and one request is sent with the current key, that username and the first 500 characters |
| `Chat.SentMessageBounded` | Streaming/app/src/main/java/com/example/streaming/chat/ChatManager.kt:181-189 | what is sent has a non-blank username and the current key, and is a prefix of the typed text of at most 500 characters, the whole text when it fits |
| `Chat.OwnMessageRecognised` | Streaming/app/src/main/java/com/example/streaming/chat/ChatManager.kt:113 | a sent message echoed back by the server is appended last and flagged as the app's own |
| `Config.FullRtmpUrl` | Streaming/app/src/main/java/com/example/streaming/streaming/StreamConfig.kt:42 | the full URL is the server URL, then one '/', then the key, with nothing added or dropped |
| `Config.FullRtmpUrlSplits` | Streaming/app/src/main/java/com/example/streaming/streaming/StreamConfig.kt:42 | the full URL is the server URL, a '/', and the key: splitting it at its last '/' gives both back whenever the key holds no '/' |
| `Config.Preset` | Streaming/app/src/main/java/com/example/streaming/streaming/StreamConfig.kt:50-103 | no preset changes the default URL or the key "stream"; only the low preset is mono |
| `Config.DefaultIsHigh` | Streaming/app/src/main/java/com/example/streaming/streaming/StreamConfig.kt:26-40 | a default-constructed configuration has the high preset's media parameters, and is in fact equal to it |
| `Config.PresetsOrdered` | Streaming/app/src/main/java/com/example/streaming/streaming/StreamConfig.kt:50-103 | a higher quality streams video at a strictly higher bitrate, and never at a lower frame rate, height or audio bitrate |
| `Config.LowPreset` | Streaming/app/src/main/java/com/example/streaming/streaming/StreamConfig.kt:47-59 | the low preset is 854x480 at 15 fps, 500 kbps video, 64 kbps mono audio at 22050 Hz, as its code sets |
| `Manager.OnConnectionStarted` | Streaming/app/src/main/java/com/example/streaming/streaming/StreamManager.kt:53-56 | the state becomes PREPARING and nothing else changes |
| `Manager.OnConnectionSuccess` | Streaming/app/src/main/java/com/example/streaming/streaming/StreamManager.kt:58-63 | the state becomes STREAMING, the start time is `now`, the connection flag is set, and every other statistic and field is kept |
| `Manager.OnConnectionFailed` | Streaming/app/src/main/java/com/example/streaming/streaming/StreamManager.kt:65-70 | the state becomes ERROR with message "Error de conexión: " and the reason, the connection flag is cleared, nothing else changes |
| `Manager.OnNewBitrate` | Streaming/app/src/main/java/com/example/streaming/streaming/StreamManager.kt:72-74 | only the bitrate statistic changes |
| `Manager.OnDisconnect` | Streaming/app/src/main/java/com/example/streaming/streaming/StreamManager.kt:76-80 | the state becomes STOPPED and the connection flag is cleared, nothing else changes |
| `Manager.OnAuthError` | Streaming/app/src/main/java/com/example/streaming/streaming/StreamManager.kt:82-86 | the state becomes ERROR with the authentication message; the connection flag is left alone |
| `Manager.Notify` | Streaming/app/src/main/java/com/example/streaming/streaming/StreamManager.kt:53-90 | no connection callback touches the camera or the configuration; only a success moves the start time; `onAuthSuccessRtmp` changes nothing, and every other callback runs its own handler |
| `Manager.CallbacksKeepCamera` | Streaming/app/src/main/java/com/example/streaming/streaming/StreamManager.kt:53-90 | after any sequence of callbacks the camera and configuration are as before, so whether the manager streams is unchanged, and the start time is that of the last success |
| `Manager.DurationAfterCallbacks` | Streaming/app/src/main/java/com/example/streaming/streaming/StreamManager.kt:53-90 | on a streaming camera the duration after any callbacks counts from the last successful connection |
| `Manager.Configure` | Streaming/app/src/main/java/com/example/streaming/streaming/StreamManager.kt:112-118 | only the configuration changes |
| `Manager.ConfigureThenStart` | Streaming/app/src/main/java/com/example/streaming/streaming/StreamManager.kt:112-118 | after installing a configuration, a start with no overrides streams to that configuration's full URL and keeps the configuration |
| `Manager.StartStreaming` | Streaming/app/src/main/java/com/example/streaming/streaming/StreamManager.kt:152-202 | no camera: refused with "Cámara no inicializada"; already streaming: accepted with no change; encoders not prepared: refused with the encoder message and the state untouched; otherwise the camera is sent to `url/key` (each defaulting to the configuration) and the result is PREPARING and streaming, or ERROR with "Error al conectar: " and the failure; a start that reaches the camera changes only the state and the camera's stream flag, or, when the camera throws, only the state and the error message |
| `Manager.StartUsesConfigUrl` | Streaming/app/src/main/java/com/example/streaming/streaming/StreamManager.kt:186-188 | with neither argument given, the stream goes to the configuration's full URL |
| `Manager.StopStreaming` | Streaming/app/src/main/java/com/example/streaming/streaming/StreamManager.kt:205-214 | a streaming camera is stopped, the state becomes STOPPED and the statistics their defaults; otherwise nothing changes; afterwards nothing streams |
| `Manager.StopIdempotent` | Streaming/app/src/main/java/com/example/streaming/streaming/StreamManager.kt:205-214 | stopping twice is stopping once |
| `Manager.StartThenStop` | Streaming/app/src/main/java/com/example/streaming/streaming/StreamManager.kt:152-214 | a successful start followed by a stop leaves a stopped, non-streaming manager with default statistics |
| `Manager.StopPreview` | Streaming/app/src/main/java/com/example/streaming/streaming/StreamManager.kt:136-143 | the preview flag is cleared and nothing else changes |
| `Manager.StopPreviewIdempotent` | Streaming/app/src/main/java/com/example/streaming/streaming/StreamManager.kt:136-143 | stopping the preview twice is stopping it once, and it neither starts nor stops the stream nor changes the microphone |
| `Manager.IsStreaming` | Streaming/app/src/main/java/com/example/streaming/streaming/StreamManager.kt:246 | without a camera the manager is never streaming |
| `Manager.IsAudioMuted` | Streaming/app/src/main/java/com/example/streaming/streaming/StreamManager.kt:252 | without a camera the microphone never reads as muted |
| `Manager.ToggleMute` | Streaming/app/src/main/java/com/example/streaming/streaming/StreamManager.kt:230-243 | with a camera the muted flag flips and the new value is returned; without one nothing changes and false is returned |
| `Manager.ToggleMuteTwice` | Streaming/app/src/main/java/com/example/streaming/streaming/StreamManager.kt:230-243 | toggling twice restores the manager |
| `Manager.StreamDuration` | Streaming/app/src/main/java/com/example/streaming/streaming/StreamManager.kt:255-261 | 0 unless there is a positive start time and a stream; otherwise the whole seconds elapsed, rounded toward zero on both sides of the start time |
| `Manager.DurationSinceSuccess` | Streaming/app/src/main/java/com/example/streaming/streaming/StreamManager.kt:58-63 | after a connection success at a positive time on a streaming camera, the duration counts the whole seconds since that time |
| `Manager.Release` | Streaming/app/src/main/java/com/example/streaming/streaming/StreamManager.kt:269-275 | the camera is dropped and the state is IDLE; the statistics are reset exactly when it was streaming |
| `Manager.ReleaseFinal` | Streaming/app/src/main/java/com/example/streaming/streaming/StreamManager.kt:269-275 | releasing twice is releasing once, and a released manager refuses to start and reports no duration |
| `Dashboard.FormatDuration` | Streaming/app/src/main/java/com/example/streaming/ui/components/DashboardComponents.kt:537-546 | the text is at least `MM:SS` long, exactly five characters below one hour, at least eight from one hour on |
| `Dashboard.Decompose` | Streaming/app/src/main/java/com/example/streaming/ui/components/DashboardComponents.kt:538-540 | for a non-negative duration hours, minutes and seconds add back up to it, with minutes and seconds in 0..59; the hour field is positive exactly from 3600 seconds on |
| `Dashboard.FieldsOfFormat` | Streaming/app/src/main/java/com/example/streaming/ui/components/DashboardComponents.kt:541-545 | the text's ':'-separated fields are the padded hours (from one hour on), minutes and seconds |
| `Dashboard.FieldCount` | Streaming/app/src/main/java/com/example/streaming/ui/components/DashboardComponents.kt:541-545 | the text has three fields exactly from 3600 seconds on, two below |
| `Dashboard.FieldWidths` | Streaming/app/src/main/java/com/example/streaming/ui/components/DashboardComponents.kt:542-544 | for a non-negative duration every field is at least two digits, and minutes and seconds exactly two |
| `Dashboard.FormatDurationRoundTrip` | Streaming/app/src/main/java/com/example/streaming/ui/components/DashboardComponents.kt:537-546 | the text of a non-negative duration reads back as that duration |
| `Dashboard.Kbps` | Streaming/app/src/main/java/com/example/streaming/ui/components/DashboardComponents.kt:89 | the kbps label is the whole number of kilobits, rounded toward zero |
| `Dashboard.KbpsOfKilobits` | Streaming/app/src/main/java/com/example/streaming/ui/components/DashboardComponents.kt:89 | a bitrate of whole kilobits plus less than one more, away from zero, labels as those whole kilobits |
| `Dashboard.KbpsOdd` | Streaming/app/src/main/java/com/example/streaming/ui/components/DashboardComponents.kt:89 | negating the bitrate negates the label, since the division rounds toward zero |
| `Screen.SelectConfig` | Streaming/app/src/main/java/com/example/streaming/ui/screens/StreamingScreen.kt:182-190 | the selected configuration is the preset of the name's level, so it always keeps the default URL and key |
| `Screen.QualityOf` | Streaming/app/src/main/java/com/example/streaming/ui/screens/StreamingScreen.kt:183-189 | "LOW", "MEDIUM" and "ULTRA" select their level; every other name selects HIGH |
| `Screen.SelectByName` | Streaming/app/src/main/java/com/example/streaming/ui/screens/StreamingScreen.kt:183-189 | each level's own name selects that level's preset |
| `Screen.UnknownNameSelectsHigh` | Streaming/app/src/main/java/com/example/streaming/ui/screens/StreamingScreen.kt:188 | a name that is none of the four selects the high preset, which equals the default configuration |
| `Screen.StoredQualitySelects` | Streaming/app/src/main/java/com/example/streaming/ui/screens/StreamingScreen.kt:134 | a quality stored in the preferences selects its preset, and an untouched store selects the high preset |
| `Screen.Push` | Streaming/app/src/main/java/com/example/streaming/ui/screens/StreamingScreen.kt:209 | one history update keeps at most 30 samples with the new one last: below 30 nothing is dropped, at 30 the oldest is |
| `Screen.PushedKeepsLatest` | Streaming/app/src/main/java/com/example/streaming/ui/screens/StreamingScreen.kt:209-213 | after any sequence of samples a window is exactly the latest 30, in order |
| `Screen.Tick` | Streaming/app/src/main/java/com/example/streaming/ui/screens/StreamingScreen.kt:204-213 | each tick re-reads the duration from the manager and pushes one sample onto each window, so each window stays the latest 30 samples with the new one last |
| `Screen.OnStreamState` | Streaming/app/src/main/java/com/example/streaming/ui/screens/StreamingScreen.kt:202-222 | outside STREAMING the duration is 0 and both windows are empty; on STREAMING nothing is reset |
| `Screen.TelemetryInStep` | Streaming/app/src/main/java/com/example/streaming/ui/screens/StreamingScreen.kt:202-222 | the two windows always hold the same number of samples, at most 30 |
| `Screen.OnStreamStateChat` | Streaming/app/src/main/java/com/example/streaming/ui/screens/StreamingScreen.kt:193-199 | on STREAMING the chat takes the screen's username (the default when blank) and joins the screen's key; otherwise nothing happens; the messages and the viewer info are untouched |
| `Screen.ChatJoinThenStopLeaves` | Streaming/app/src/main/java/com/example/streaming/ui/screens/StreamingScreen.kt:193-199 | the join sent on reaching STREAMING and the leave sent by the press that stops the stream name the same key |
| `Screen.StartStop` | Streaming/app/src/main/java/com/example/streaming/ui/screens/StreamingScreen.kt:532-545 | while streaming: the stream stops and the chat leaves the key; otherwise the selected configuration is installed first and the result is exactly that of `startStreaming` with the screen's URL and key |
| `Screen.PressTwice` | Streaming/app/src/main/java/com/example/streaming/ui/screens/StreamingScreen.kt:532-545 | a press that starts the stream followed by a second press stops it and leaves the chat room of the same key |
| `Screen.FormatDuration` | Streaming/app/src/main/java/com/example/streaming/ui/screens/StreamingScreen.kt:1255-1264 | the screen's own formatter is the dashboard's, for every input |
| `Theme.UnsetDefaults` | Streaming/app/src/main/java/com/example/streaming/settings/ThemeManager.kt:40-101 | an untouched store reads dark mode on, notifications on, picture-in-picture on, theater mode off, "Android User", "stream", the myvnc server URL and "HIGH" |
| `Theme.Flag` | Streaming/app/src/main/java/com/example/streaming/settings/ThemeManager.kt:50-101 | a flag reads as its stored value, or as its default while unset |
| `Theme.Text` | Streaming/app/src/main/java/com/example/streaming/settings/ThemeManager.kt:57-80 | a text reads as its stored value, or as its default while unset |
| `Theme.SetFlag` | Streaming/app/src/main/java/com/example/streaming/settings/ThemeManager.kt:106-110 | the flag reads as the given value afterwards and no other preference changes |
| `Theme.Toggle` | Streaming/app/src/main/java/com/example/streaming/settings/ThemeManager.kt:115-120 | the flag stores the negation of what it read, an unset flag reading as its default (true for dark mode, false for theater mode); no other preference changes |
| `Theme.ToggleTwice` | Streaming/app/src/main/java/com/example/streaming/settings/ThemeManager.kt:179-184 | toggling twice restores what every flag reads, and no text changes |
| `Theme.SetNonBlank` | Streaming/app/src/main/java/com/example/streaming/settings/ThemeManager.kt:125-147 | the username, stream key or server URL reads as the argument afterwards, or as its default when the argument is blank; no other preference changes |
| `Theme.SettersKeepTextsNonBlank` | Streaming/app/src/main/java/com/example/streaming/settings/ThemeManager.kt:125-147 | these setters never make the username, stream key or server URL read as blank |
| `Theme.SetQuality` | Streaming/app/src/main/java/com/example/streaming/settings/ThemeManager.kt:152-156 | any string is stored verbatim as the quality; no other preference changes |
| `Runtime.IsWhitespace` | Streaming/app/src/main/java/com/example/streaming/chat/ChatManager.kt:179 | space, tab, newline and carriage return are whitespace; no visible ASCII character is |
| `Runtime.IsBlank` | Streaming/app/src/main/java/com/example/streaming/chat/ChatManager.kt:179 | the empty string is blank; a string with a visible ASCII character is not |
| `Runtime.IfBlank` | Streaming/app/src/main/java/com/example/streaming/chat/ChatManager.kt:197 | a non-blank string is kept, a blank one replaced by the default, so a non-blank default gives a non-blank result |
| `Runtime.Take` | Streaming/app/src/main/java/com/example/streaming/chat/ChatManager.kt:186 | the result is a prefix of the input, of length the smaller of n and the input's length |
| `Runtime.TakeLast` | Streaming/app/src/main/java/com/example/streaming/ui/screens/StreamingScreen.kt:209 | the result has length the smaller of n and the input's length and is the input's tail |
| `Runtime.LongToString` | Streaming/app/src/main/java/com/example/streaming/chat/ChatManager.kt:109 | the decimal text of a number: its digits, after a '-' when negative |
| `Runtime.TakeLastSnoc` | Streaming/app/src/main/java/com/example/streaming/ui/screens/StreamingScreen.kt:209 | appending one element slides the last-n window by one |
| `Runtime.TDiv` | Streaming/app/src/main/java/com/example/streaming/streaming/StreamManager.kt:257 | Kotlin `Long` division: Dafny's quotient for non-negative dividends, the same magnitude with the sign of the dividend otherwise |
| `Runtime.Pad2` | Streaming/app/src/main/java/com/example/streaming/ui/components/DashboardComponents.kt:542 | `%02d`: two digits for 0..99, at least two characters always, never a ':' |
| `Runtime.ReadPad2` | Streaming/app/src/main/java/com/example/streaming/ui/components/DashboardComponents.kt:542 | a padded non-negative number reads back as itself |

## Left out

- `PlataformaSteaming/media-server.js` is only configuration for an RTMP/FFmpeg server library, and logging hooks.
- `PlataformaSteaming/db.js` works through SQL text run by a database library; it is a foreign store and is not part of this model.
- `PlataformaSteaming/public/app.js` is browser player and DOM code.
- Presence.AllSnapshots: stream keys are modelled as strings. The join handler (server.js:88) accepts any JSON value as a key; a number `1` and a string `"1"` are then two `Map` keys that collide as one property of the all-streams answer, and that collision is not modelled.
- Socket.IO transport: `socket.join`, room delivery, ordering and loss are not modelled. A broadcast is an entry of the returned event list; an app request is an entry of the returned request list.
- `ChatManager.connect`/`disconnect`, its connection state, the `stream-started`/`stream-ended` events and `clearStreamEvent` are connection lifecycle, not modelled.
- JSON type coercion in the app's handlers (`optInt` on a string, `optString` on a number) is not modelled. A field is either present with the right type or absent.
- String lengths are counted in Unicode characters. Kotlin's `take(500)` counts UTF-16 code units; the two differ only for characters outside the Basic Multilingual Plane.
- Integer widths: counts, times and bitrates are unbounded integers. `Int`/`Long` overflow is not modelled, since no realistic value reaches it.
- History samples are `Float`s in the app. The windows are generic in their element type, and the `bitrate / 1000f` conversion is not modelled.
- `String.format` is modelled with ASCII digits. A locale with other digits is not modelled.
- `StreamManager.initialize`, `startPreview`, `switchCamera` and `clearError` are camera plumbing. `onAuthSuccessRtmp` only logs.
- The camera's encoder is one abstract record: `prepareVideo && prepareAudio` is a single success flag, and `startStream` either succeeds or fails with a message.
- Wall-clock time (`Date.now`, `System.currentTimeMillis`) is an explicit parameter, one per reading: `now`, or `idNow` and `tsNow` for the two readings of the `chat-message` handler.
- DataStore persistence is a pair of maps; asynchronous writes and flows are not modelled.
- Concurrency: every component is a sequence of transitions, as Node's single-threaded dispatch and the app's main-thread use give it.
- Compose rendering, picture-in-picture, `MainActivity` and all layout code are UI and not modelled. Of the screen, only the logic at StreamingScreen.kt lines 181-222, 532-549 and 1255-1264 is modelled.

=== FILE: chat.dfy ===
/**
 The chat client of the Android app (ChatManager.kt): the local message buffer, the viewer
 information pushed by the server, the current username and stream key, and the requests
 the app hands to its Socket.IO connection.

 The connection itself (connect, reconnection, disconnect, connection state) is not part of
 this model: a request is what the manager passes to `socket.emit`, and whether it reaches
 the server is the transport's business. An incoming JSON object is modelled by the fields
 the handlers read, each present or absent.
 */
module Chat {
  import opened Runtime
  import Presence

  /** The bound on the local message buffer. */
  const MaxMessages := 100
  /** The bound on an outgoing message body. */
  const MaxMessageLength := 500
  const DefaultUsername := "Android User"
  const DefaultStreamKey := "stream"

  /** `ChatMessage`. */
  datatype ChatMessage = ChatMessage(id: string, username: string, message: string,
                                     timestamp: int, isFromAndroid: bool)

  /** `ViewerInfo`. */
  datatype ViewerInfo = ViewerInfo(current: int, peak: int, streamKey: string)

  const DefaultViewerInfo := ViewerInfo(0, 0, DefaultStreamKey)

  /** The manager's local state: `messages`, `viewerCount`, `currentStreamKey`,
      `currentUsername`. */
  datatype ChatState = ChatState(messages: seq<ChatMessage>, viewerInfo: ViewerInfo,
                                 streamKey: string, username: string)

  const Initial := ChatState([], DefaultViewerInfo, DefaultStreamKey, DefaultUsername)

  /** The buffer never holds more than `MaxMessages` messages. */
  predicate Bounded(st: ChatState) {
    |st.messages| <= MaxMessages
  }

  /** The fields of an incoming `chat-message` object. */
  datatype ChatPayload = ChatPayload(id: Option<string>, username: Option<string>,
                                     message: Option<string>, timestamp: Option<int>)

  /** The fields of an incoming `viewer-count` object. */
  datatype CountPayload = CountPayload(viewers: Option<int>, peakViewers: Option<int>,
                                       streamKey: Option<string>)

  /** A request handed to the socket. */
  datatype Request =
    | JoinStream(streamKey: string)
    | LeaveStream(streamKey: string)
    | SendChat(streamKey: string, username: string, message: string)

  datatype ChatStep = ChatStep(state: ChatState, sent: seq<Request>)

  // ---------------------------------------------------------------------------
  // Receiving
  // ---------------------------------------------------------------------------

  /** Adds `m` at the end of the buffer and drops the oldest message when the buffer would
      exceed `MaxMessages`. */
  function Append(buffer: seq<ChatMessage>, m: ChatMessage): (r: seq<ChatMessage>)
    ensures |buffer| <= MaxMessages ==> |r| <= MaxMessages
    ensures |r| > 0 && r[|r| - 1] == m
    ensures |buffer| < MaxMessages ==> r == buffer + [m]
    ensures |buffer| >= MaxMessages ==> r == buffer[1..] + [m]
  {
    var grown := buffer + [m];
    if |grown| > MaxMessages then grown[1..] else grown
  }

  /** Decodes a well-formed `chat-message` object, and the message is the app's own when it
      carries the current name. The handler reads the clock twice, for the id default first
      (`idNow`) and for the timestamp default then (`tsNow`); the two readings may differ. */
  function Decode(st: ChatState, p: ChatPayload, idNow: int, tsNow: int): (m: Option<ChatMessage>)
    ensures m.Some? <==> p.username.Some? && p.message.Some?
    ensures m.Some? ==> && m.value.username == p.username.value
                        && m.value.message == p.message.value
                        && (m.value.isFromAndroid <==> p.username.value == st.username)
                        && m.value.id == p.id.GetOr(LongToString(idNow))
                        && m.value.timestamp == p.timestamp.GetOr(tsNow)
  {
    if p.username.None? || p.message.None? then None
    else
      Some(ChatMessage(p.id.GetOr(LongToString(idNow)), p.username.value, p.message.value,
                       p.timestamp.GetOr(tsNow), p.username.value == st.username))
  }

  /** The `chat-message` listener. `None` stands for an argument that is not a JSON object;
      a payload that cannot be decoded is logged and dropped. */
  function ReceiveChat(st: ChatState, payload: Option<ChatPayload>, idNow: int, tsNow: int)
    : (r: ChatState)
    ensures payload.None? ==> r == st
    ensures payload.Some? && Decode(st, payload.value, idNow, tsNow).None? ==> r == st
    ensures payload.Some? && Decode(st, payload.value, idNow, tsNow).Some? ==>
              r == st.(messages := Append(st.messages, Decode(st, payload.value, idNow, tsNow).value))
    ensures Bounded(st) ==> Bounded(r)
  {
    match payload
    case None => st
    case Some(p) =>
      match Decode(st, p, idNow, tsNow)
      case None => st
      case Some(m) => st.(messages := Append(st.messages, m))
  }

  /** The buffer `buffer` after the messages `ms` arrived at it, one by one. */
  function Received(buffer: seq<ChatMessage>, ms: seq<ChatMessage>): seq<ChatMessage>
    decreases |ms|
  {
    if |ms| == 0 then buffer else Append(Received(buffer, ms[..|ms| - 1]), ms[|ms| - 1])
  }

  /** The buffer always holds exactly the latest `MaxMessages` messages it has seen, oldest
      first: those it held before, followed by those that arrived since. */
  lemma {:induction false} ReceivedKeepsLatest(buffer: seq<ChatMessage>, ms: seq<ChatMessage>)
    requires |buffer| <= MaxMessages
    ensures Received(buffer, ms) == TakeLast(buffer + ms, MaxMessages)
    decreases |ms|
  {
    if |ms| == 0 {
      assert buffer + ms == buffer;
    } else {
      var init := ms[..|ms| - 1];
      var m := ms[|ms| - 1];
      ReceivedKeepsLatest(buffer, init);
      var w := TakeLast(buffer + init, MaxMessages);
      TakeLastSnoc(w, m, MaxMessages);
      var all := buffer + ms;
      assert all[..|all| - 1] == buffer + init;
      assert all[|all| - 1] == m;
      TakeLastOfWindow(all, MaxMessages);
    }
  }

  /** After `clearMessages()` the buffer holds only the latest `MaxMessages` of the messages
      that arrived since. */
  lemma ClearThenReceive(st: ChatState, ms: seq<ChatMessage>)
    ensures Received(ClearMessages(st).messages, ms) == TakeLast(ms, MaxMessages)
  {
    ReceivedKeepsLatest([], ms);
    assert [] + ms == ms;
  }

  /** The `viewer-count` listener: the whole viewer information is replaced, absent fields
      falling back to 0, 0 and the current stream key. */
  function ReceiveViewerCount(st: ChatState, payload: Option<CountPayload>): (r: ChatState)
    ensures payload.None? ==> r == st
    ensures payload.Some? ==>
              r == st.(viewerInfo := ViewerInfo(payload.value.viewers.GetOr(0),
                                                payload.value.peakViewers.GetOr(0),
                                                payload.value.streamKey.GetOr(st.streamKey)))
  {
    match payload
    case None => st
    case Some(p) =>
      st.(viewerInfo := ViewerInfo(p.viewers.GetOr(0), p.peakViewers.GetOr(0),
                                   p.streamKey.GetOr(st.streamKey)))
  }

  /** A `viewer-count` broadcast of the server as the client receives it: all three fields
      present. */
  function WireCount(e: Presence.ViewerCount): CountPayload {
    CountPayload(Some(e.viewers as int), Some(e.peakViewers as int), Some(e.streamKey))
  }

  /** Any broadcast the server emits, in any run of joins, leaves and disconnects from a
      consistent registry, installs exactly its own counts and room in the client, and the
      current count it shows never exceeds the peak. */
  lemma ServerCountsReceived(st: ChatState, r: Presence.Registry, es: seq<Presence.Event>, i: nat)
    requires Presence.Valid(r)
    requires i < |Presence.Run(r, es).events|
    ensures var e := Presence.Run(r, es).events[i];
            var info := ReceiveViewerCount(st, Some(WireCount(e))).viewerInfo;
            && info == ViewerInfo(e.viewers, e.peakViewers, e.streamKey)
            && 0 <= info.current <= info.peak
  {
    Presence.RunPreserves(r, es);
  }

  // ---------------------------------------------------------------------------
  // Local operations
  // ---------------------------------------------------------------------------

  /** `joinStream(key)`: remembers the key and asks the server to join it. */
  function Join(st: ChatState, key: string): (r: ChatStep)
    ensures r.state.streamKey == key
    ensures r.state.messages == st.messages && r.state.username == st.username
    ensures r.state.viewerInfo == st.viewerInfo
    ensures r.sent == [JoinStream(key)]
  {
    ChatStep(st.(streamKey := key), [JoinStream(key)])
  }

  /** `leaveStream(key)`: asks the server to leave, without forgetting the current key. */
  function Leave(st: ChatState, key: string): (r: ChatStep)
    ensures r.state == st
    ensures r.sent == [LeaveStream(key)]
  {
    ChatStep(st, [LeaveStream(key)])
  }

  /** Joining and then leaving the same room asks the server for exactly that, and the key
      stays remembered after the leave. */
  lemma JoinThenLeave(st: ChatState, key: string)
    ensures var j := Join(st, key);
            var l := Leave(j.state, key);
            && l.state == st.(streamKey := key)
            && j.sent + l.sent == [JoinStream(key), LeaveStream(key)]
  {}

  /** After a join, a message is sent to the room joined, and a count that names no room is
      filed under it. */
  lemma JoinAddresses(st: ChatState, key: string, message: string, name: Option<string>,
                      viewers: Option<int>, peak: Option<int>)
    requires !IsBlank(message)
    ensures SendMessage(Join(st, key).state, message, name).sent[0].streamKey == key
    ensures ReceiveViewerCount(Join(st, key).state, Some(CountPayload(viewers, peak, None)))
              .viewerInfo.streamKey == key
  {}

  /** `setUsername(name)`: a blank name stands for the default one. */
  function SetUsername(st: ChatState, name: string): (r: ChatState)
    ensures !IsBlank(r.username)
    ensures !IsBlank(name) ==> r.username == name
    ensures IsBlank(name) ==> r.username == DefaultUsername
    ensures r.(username := st.username) == st
  {
    DefaultUsernameNotBlank();
    st.(username := IfBlank(name, DefaultUsername))
  }

  lemma DefaultUsernameNotBlank()
    ensures !IsBlank(DefaultUsername)
  {
    assert !IsWhitespace(DefaultUsername[0]);
  }

  /** `clearMessages()`. */
  function ClearMessages(st: ChatState): (r: ChatState)
    ensures r.messages == []
    ensures r.(messages := st.messages) == st
  {
    st.(messages := [])
  }

  /** `sendMessage(message, username)`; `name` is `None` when the caller leaves the username
      at its default, the current one. A blank message is ignored altogether; otherwise the
      username is stored like `setUsername` does, and the body is cut to 500 characters. */
  function SendMessage(st: ChatState, message: string, name: Option<string>): (r: ChatStep)
    ensures IsBlank(message) ==> r == ChatStep(st, [])
    ensures !IsBlank(message) ==>
              && r.state == SetUsername(st, name.GetOr(st.username))
              && r.sent == [SendChat(st.streamKey, r.state.username, Take(message, MaxMessageLength))]
  {
    if IsBlank(message) then ChatStep(st, [])
    else
      var st' := st.(username := IfBlank(name.GetOr(st.username), DefaultUsername));
      ChatStep(st', [SendChat(st.streamKey, st'.username, Take(message, MaxMessageLength))])
  }

  /** What is sent is never blank-named, never longer than 500 characters, and is a prefix of
      what was typed: the whole of it when it fits. */
  lemma SentMessageBounded(st: ChatState, message: string, name: Option<string>)
    requires !IsBlank(message)
    ensures var r := SendMessage(st, message, name);
            && |r.sent| == 1
            && |r.sent[0].message| <= MaxMessageLength
            && r.sent[0].message <= message
            && (|message| <= MaxMessageLength ==> r.sent[0].message == message)
            && !IsBlank(r.sent[0].username)
            && r.sent[0].streamKey == st.streamKey
  {}

  /** A message the app sends under the current name comes back from the server flagged as
      the app's own. */
  lemma OwnMessageRecognised(st: ChatState, message: string, name: Option<string>,
                             id: string, timestamp: int, idNow: int, tsNow: int)
    requires !IsBlank(message)
    ensures var r := SendMessage(st, message, name);
            var echo := ChatPayload(Some(id), Some(r.sent[0].username),
                                    Some(r.sent[0].message), Some(timestamp));
            var back := ReceiveChat(r.state, Some(echo), idNow, tsNow);
            && back.messages[|back.messages| - 1].isFromAndroid
            && back.messages[|back.messages| - 1].message == Take(message, MaxMessageLength)
  {}
}

=== FILE: dashboard.dfy ===
/**
 The arithmetic of the statistics dashboard (DashboardComponents.kt): the `HH:MM:SS` /
 `MM:SS` duration text and the bitrate shown in kbps. Durations and bitrates are Kotlin
 `Long`s, so `/` and `%` truncate toward zero; the text is what `String.format` produces
 with ASCII digits.
 */
module Dashboard {
  import opened Runtime

  /** Hours, minutes and seconds as the function computes them. */
  datatype Clock = Clock(hours: int, minutes: int, secs: int)

  function Decompose(seconds: int): (c: Clock)
    ensures seconds >= 0 ==> c.hours * 3600 + c.minutes * 60 + c.secs == seconds
    ensures seconds >= 0 ==> 0 <= c.minutes < 60 && 0 <= c.secs < 60 && c.hours >= 0
    ensures c.hours > 0 <==> seconds >= 3600
  {
    Clock(TDiv(seconds, 3600), TDiv(TMod(seconds, 3600), 60), TMod(seconds, 60))
  }

  /** `formatDuration(seconds)` of DashboardComponents.kt. */
  function FormatDuration(seconds: int): (s: string)
    ensures |s| >= 5
    ensures 0 <= seconds < 3600 ==> |s| == 5
    ensures seconds >= 3600 ==> |s| >= 8
  {
    var c := Decompose(seconds);
    if c.hours > 0 then Pad2(c.hours) + ":" + Pad2(c.minutes) + ":" + Pad2(c.secs)
    else Pad2(c.minutes) + ":" + Pad2(c.secs)
  }

  /** The ':'-separated fields of a string. */
  function Fields(s: string): (fs: seq<string>)
    ensures |fs| >= 1
    ensures forall i :: 0 <= i < |fs| ==> ':' !in fs[i]
  {
    if |s| == 0 then [""]
    else
      var rest := Fields(s[1..]);
      if s[0] == ':' then [""] + rest
      else [[s[0]] + rest[0]] + rest[1..]
  }

  lemma {:induction false} FieldsOfJoin(a: string, b: string)
    requires ':' !in a
    ensures Fields(a + ":" + b) == [a] + Fields(b)
    decreases |a|
  {
    var s := a + ":" + b;
    if |a| == 0 {
      assert s == [':'] + b;
      assert s[1..] == b;
    } else {
      assert s[1..] == a[1..] + ":" + b;
      FieldsOfJoin(a[1..], b);
      assert s[0] == a[0] && s[0] != ':';
      assert [a[0]] + a[1..] == a;
    }
  }

  lemma {:induction false} FieldsOfField(a: string)
    requires ':' !in a
    ensures Fields(a) == [a]
    decreases |a|
  {
    if |a| > 0 {
      FieldsOfField(a[1..]);
      assert [a[0]] + a[1..] == a;
    }
  }

  /** Reads `MM:SS` or `HH:MM:SS` back into seconds; anything else is rejected. */
  function ParseDuration(s: string): Option<int> {
    ParseFields(Fields(s))
  }

  /** Reads two or three all-digit fields as minutes and seconds, or hours, minutes and
      seconds. */
  function ParseFields(fs: seq<string>): Option<int> {
    if !(forall i :: 0 <= i < |fs| ==> |fs[i]| > 0 && AllDigits(fs[i])) then None
    else if |fs| == 2 then Some(ReadDigits(fs[0]) * 60 + ReadDigits(fs[1]))
    else if |fs| == 3 then Some(ReadDigits(fs[0]) * 3600 + ReadDigits(fs[1]) * 60 + ReadDigits(fs[2]))
    else None
  }

  /** The fields of the text are the padded hours (from one hour on), minutes and seconds. */
  lemma FieldsOfFormat(seconds: int)
    ensures var c := Decompose(seconds);
            Fields(FormatDuration(seconds))
              == (if seconds >= 3600 then [Pad2(c.hours), Pad2(c.minutes), Pad2(c.secs)]
                  else [Pad2(c.minutes), Pad2(c.secs)])
  {
    var c := Decompose(seconds);
    FieldsOfField(Pad2(c.secs));
    FieldsOfJoin(Pad2(c.minutes), Pad2(c.secs));
    if c.hours > 0 {
      FieldsOfJoin(Pad2(c.hours), Pad2(c.minutes) + ":" + Pad2(c.secs));
      assert FormatDuration(seconds) == Pad2(c.hours) + ":" + (Pad2(c.minutes) + ":" + Pad2(c.secs));
    }
  }

  /** The text has three fields exactly from one hour on, two below (negative durations
      included). */
  lemma FieldCount(seconds: int)
    ensures |Fields(FormatDuration(seconds))| == (if seconds >= 3600 then 3 else 2)
  {
    FieldsOfFormat(seconds);
  }

  /** For a non-negative duration every field is at least two digits, minutes and seconds
      exactly two. */
  lemma FieldWidths(seconds: int)
    requires seconds >= 0
    ensures var fs := Fields(FormatDuration(seconds));
            && |fs| >= 2
            && (forall i :: 0 <= i < |fs| ==> |fs[i]| >= 2 && AllDigits(fs[i]))
            && |fs[|fs| - 1]| == 2 && |fs[|fs| - 2]| == 2
  {
    FieldsOfFormat(seconds);
  }

  /** A non-negative duration reads back from its text: hours, minutes and seconds add up to
      it and none of them is lost in the rendering. */
  lemma FormatDurationRoundTrip(seconds: int)
    requires seconds >= 0
    ensures ParseDuration(FormatDuration(seconds)) == Some(seconds)
  {
    var c := Decompose(seconds);
    FieldsOfFormat(seconds);
    ReadPad2(c.minutes);
    ReadPad2(c.secs);
    var text := FormatDuration(seconds);
    if c.hours > 0 {
      ReadPad2(c.hours);
      ParseThree(Pad2(c.hours), Pad2(c.minutes), Pad2(c.secs));
    } else {
      ParseTwo(Pad2(c.minutes), Pad2(c.secs));
    }
  }

  lemma ParseTwo(m: string, s: string)
    requires |m| > 0 && AllDigits(m) && |s| > 0 && AllDigits(s)
    ensures ParseFields([m, s]) == Some(ReadDigits(m) * 60 + ReadDigits(s))
  {
    var fs := [m, s];
    assert forall i :: 0 <= i < |fs| ==> fs[i] == m || fs[i] == s;
  }

  lemma ParseThree(h: string, m: string, s: string)
    requires |h| > 0 && AllDigits(h) && |m| > 0 && AllDigits(m) && |s| > 0 && AllDigits(s)
    ensures ParseFields([h, m, s]) == Some(ReadDigits(h) * 3600 + ReadDigits(m) * 60 + ReadDigits(s))
  {
    var fs := [h, m, s];
    assert forall i :: 0 <= i < |fs| ==> fs[i] == h || fs[i] == m || fs[i] == s;
  }

  /** The bitrate label `bitrate / 1000`, a truncating `Long` division: whole kilobits,
      rounded toward zero on either side. */
  function Kbps(bitrate: int): (k: int)
    ensures bitrate >= 0 ==> k * 1000 <= bitrate < k * 1000 + 1000
    ensures bitrate < 0 ==> k * 1000 - 1000 < bitrate <= k * 1000
  {
    TDiv(bitrate, 1000)
  }

  /** The label reads back the whole kilobits: adding less than one kilobit, on the side away
      from zero, does not change it. */
  lemma KbpsOfKilobits(k: int, rest: nat)
    requires rest < 1000
    ensures Kbps(k * 1000 + (if k >= 0 then rest as int else -(rest as int))) == k
  {}

  /** Rounding toward zero treats both signs alike. */
  lemma KbpsOdd(bitrate: int)
    ensures Kbps(-bitrate) == -Kbps(bitrate)
  {}
}

=== FILE: presence.dfy ===
/**
 The web server's viewer-presence registry (PlataformaSteaming/server.js).

 The server keeps two module-level maps: `streamViewers`, from a stream key to the set of
 socket ids watching it, and `streamStats`, from a stream key to its viewer count, peak
 viewer count and start time. Socket.IO events mutate them one at a time (Node dispatches
 handlers on a single thread), so every handler is a pure transition here: it returns the
 new registry and the `viewer-count` broadcasts it emits, in emission order.

 A JavaScript `Map` iterates its entries in insertion order, and the disconnect handler
 walks `streamViewers` in that order, so the registry also records the insertion order of
 the keys of `streamViewers`.
 */
module Presence {
  import opened Runtime

  type SocketId = string
  type StreamKey = string

  /** An entry of `streamStats`. */
  datatype Stats = Stats(viewers: nat, peakViewers: nat, startTime: int)

  /** `streamViewers` (as `rooms`, with its key insertion order) and `streamStats`. */
  datatype Registry = Registry(
    rooms: map<StreamKey, set<SocketId>>,
    order: seq<StreamKey>,
    stats: map<StreamKey, Stats>)

  /** The payload of a `viewer-count` broadcast to the room `streamKey`. */
  datatype ViewerCount = ViewerCount(streamKey: StreamKey, viewers: nat, peakViewers: nat)

  /** The registry after a handler, and the broadcasts the handler emitted. */
  datatype Step = Step(reg: Registry, events: seq<ViewerCount>)

  /** The registry at server start: both maps empty. */
  const Empty := Registry(map[], [], map[])

  /** The sockets watching `key` (no entry means nobody). */
  function Members(r: Registry, key: StreamKey): set<SocketId> {
    if key in r.rooms then r.rooms[key] else {}
  }

  /** The recorded peak of `key`, 0 when it has no statistics. */
  function PeakOf(r: Registry, key: StreamKey): nat {
    if key in r.stats then r.stats[key].peakViewers else 0
  }

  predicate NoDup<T(==)>(s: seq<T>) {
    forall i, j :: 0 <= i < j < |s| ==> s[i] != s[j]
  }

  /** The consistency the handlers maintain between the two maps. */
  ghost predicate Valid(r: Registry) {
    // every watched stream has statistics
    && r.rooms.Keys <= r.stats.Keys
    // no empty set is left in `streamViewers`
    && (forall k :: k in r.rooms ==> r.rooms[k] != {})
    // the recorded count is the number of sockets watching (0 for an emptied room)
    && (forall k :: k in r.stats ==> r.stats[k].viewers == |Members(r, k)|)
    && (forall k :: k in r.stats ==> r.stats[k].viewers <= r.stats[k].peakViewers)
    // the insertion order lists each key of `streamViewers` exactly once
    && NoDup(r.order)
    && (forall k :: k in r.order <==> k in r.rooms)
  }

  /** Statistics only ever grow: no entry disappears, no start time changes and no peak
      goes down from `r` to `r'`. */
  ghost predicate HistoryKept(r: Registry, r': Registry) {
    && r.stats.Keys <= r'.stats.Keys
    && forall k :: k in r.stats ==>
         && r'.stats[k].startTime == r.stats[k].startTime
         && r.stats[k].peakViewers <= r'.stats[k].peakViewers
  }

  lemma HistoryKeptTransitive(r1: Registry, r2: Registry, r3: Registry)
    requires HistoryKept(r1, r2) && HistoryKept(r2, r3)
    ensures HistoryKept(r1, r3)
  {}

  /** Leaving changes no statistics entry except its viewer count. */
  ghost predicate SameHistory(r: Registry, r': Registry) {
    && r.stats.Keys == r'.stats.Keys
    && forall k :: k in r.stats ==>
         && r'.stats[k].startTime == r.stats[k].startTime
         && r'.stats[k].peakViewers == r.stats[k].peakViewers
  }

  // ---------------------------------------------------------------------------
  // join-stream
  // ---------------------------------------------------------------------------

  /** The `join-stream` handler of socket `socket` for `key`, at wall-clock time `now`. */
  function Join(r: Registry, socket: SocketId, key: StreamKey, now: int): (s: Step)
    ensures Members(s.reg, key) == Members(r, key) + {socket}
    ensures forall k :: k != key ==> Members(s.reg, k) == Members(r, k)
    ensures key in s.reg.stats
    ensures s.reg.stats.Keys == r.stats.Keys + {key}
    ensures forall k :: k in r.stats && k != key ==> s.reg.stats[k] == r.stats[k]
    // statistics are created with start time `now` only when absent
    ensures s.reg.stats[key].startTime == (if key in r.stats then r.stats[key].startTime else now)
    ensures s.reg.stats[key].viewers == |Members(s.reg, key)|
    ensures s.reg.stats[key].peakViewers == Max(PeakOf(r, key), |Members(s.reg, key)|)
    ensures s.events == [ViewerCount(key, |Members(s.reg, key)|, s.reg.stats[key].peakViewers)]
    // a new room goes last in the iteration order, an existing one keeps its place
    ensures s.reg.order == (if key in r.rooms then r.order else r.order + [key])
  {
    var members := Members(r, key) + {socket};
    var order := if key in r.rooms then r.order else r.order + [key];
    var prior := if key in r.stats then r.stats[key] else Stats(0, 0, now);
    var peak := if |members| > prior.peakViewers then |members| else prior.peakViewers;
    var stats := Stats(|members|, peak, prior.startTime);
    Step(Registry(r.rooms[key := members], order, r.stats[key := stats]),
         [ViewerCount(key, |members|, peak)])
  }

  lemma JoinPreservesValid(r: Registry, socket: SocketId, key: StreamKey, now: int)
    requires Valid(r)
    ensures Valid(Join(r, socket, key, now).reg)
    ensures HistoryKept(r, Join(r, socket, key, now).reg)
  {
    var r' := Join(r, socket, key, now).reg;
    if key !in r.rooms {
      forall i, j | 0 <= i < j < |r'.order| ensures r'.order[i] != r'.order[j] {
        if j == |r.order| { assert r'.order[j] == key; assert r'.order[i] in r.rooms; }
      }
    }
  }

  /** Joining again with a socket that already watches changes nothing but re-broadcasts. */
  lemma JoinIdempotent(r: Registry, socket: SocketId, key: StreamKey, now: int, later: int)
    ensures Join(Join(r, socket, key, now).reg, socket, key, later).reg
         == Join(r, socket, key, now).reg
  {}

  // ---------------------------------------------------------------------------
  // leave-stream (handleViewerLeave)
  // ---------------------------------------------------------------------------

  /** The keys of `order` other than `key`, in order: `Map.delete` leaves every other key in
      its place. */
  function Without(order: seq<StreamKey>, key: StreamKey): (r: seq<StreamKey>)
    ensures forall k :: k in r <==> k in order && k != key
    ensures NoDup(order) ==> NoDup(r)
    ensures key !in order ==> r == order
    ensures NoDup(order) && key in order ==>
              exists i :: 0 <= i < |order| && order[i] == key && r == order[..i] + order[i + 1..]
    decreases |order|
  {
    if |order| == 0 then []
    else if order[0] == key then Without(order[1..], key)
    else
      var rest := Without(order[1..], key);
      if NoDup(order) then NoDupTail(order); [order[0]] + rest else [order[0]] + rest
  }

  /** `handleViewerLeave(socket, key)`: a key absent from `streamViewers` is ignored;
      otherwise the socket (member or not) is removed, the count re-recorded and broadcast,
      and an emptied set deleted. The statistics entry is never deleted. */
  function Leave(r: Registry, socket: SocketId, key: StreamKey): (s: Step)
    ensures key !in r.rooms ==> s == Step(r, [])
    ensures Members(s.reg, key) == Members(r, key) - {socket}
    ensures forall k :: k != key ==> Members(s.reg, k) == Members(r, k)
    ensures key in s.reg.rooms <==> Members(s.reg, key) != {}
    ensures s.reg.stats.Keys == r.stats.Keys
    ensures forall k :: k in r.stats ==>
              && s.reg.stats[k].peakViewers == r.stats[k].peakViewers
              && s.reg.stats[k].startTime == r.stats[k].startTime
    ensures key in r.rooms && key in r.stats ==> s.reg.stats[key].viewers == |Members(s.reg, key)|
    ensures forall k :: k in r.stats && k != key ==> s.reg.stats[k] == r.stats[k]
    ensures key in r.rooms ==>
              s.events == [ViewerCount(key, |Members(s.reg, key)|, PeakOf(r, key))]
    // only an emptied room leaves the iteration order
    ensures key in r.rooms ==>
              s.reg.order == (if key in s.reg.rooms then r.order else Without(r.order, key))
  {
    if key !in r.rooms then Step(r, [])
    else
      var members := r.rooms[key] - {socket};
      var stats := if key in r.stats then r.stats[key := r.stats[key].(viewers := |members|)]
                   else r.stats;
      var event := ViewerCount(key, |members|, PeakOf(r, key));
      if |members| == 0 then
        Step(Registry(r.rooms - {key}, Without(r.order, key), stats), [event])
      else
        Step(Registry(r.rooms[key := members], r.order, stats), [event])
  }

  lemma LeavePreservesValid(r: Registry, socket: SocketId, key: StreamKey)
    requires Valid(r)
    ensures Valid(Leave(r, socket, key).reg)
    ensures SameHistory(r, Leave(r, socket, key).reg)
  {}

  /** When the last viewer leaves, the room's set is deleted but its statistics stay: a later
      join keeps the original start time and continues from the old peak. */
  lemma EmptiedRoomKeepsHistory(r: Registry, socket: SocketId, key: StreamKey,
                                newcomer: SocketId, now: int)
    requires Valid(r)
    requires Members(r, key) == {socket}
    ensures var left := Leave(r, socket, key).reg;
            && key !in left.rooms
            && key in left.stats
            && left.stats[key] == r.stats[key].(viewers := 0)
            && var back := Join(left, newcomer, key, now).reg;
               && back.stats[key].startTime == r.stats[key].startTime
               && back.stats[key].peakViewers == r.stats[key].peakViewers
               && back.stats[key].viewers == 1
  {
    assert key in r.rooms;
    var left := Leave(r, socket, key).reg;
    assert Members(left, key) == {};
    LeavePreservesValid(r, socket, key);
  }

  // ---------------------------------------------------------------------------
  // disconnect
  // ---------------------------------------------------------------------------

  /** The walk of the disconnect handler over the keys `keys`: every visited room that
      currently holds `socket` gets a `handleViewerLeave`. */
  function Sweep(r: Registry, socket: SocketId, keys: seq<StreamKey>): (s: Step)
    ensures |s.events| <= |keys|
    ensures s.reg.stats.Keys == r.stats.Keys
    ensures forall k :: k !in keys ==> Members(s.reg, k) == Members(r, k)
    decreases |keys|
  {
    if |keys| == 0 then Step(r, [])
    else if socket in Members(r, keys[0]) then
      var first := Leave(r, socket, keys[0]);
      var rest := Sweep(first.reg, socket, keys[1..]);
      Step(rest.reg, first.events + rest.events)
    else Sweep(r, socket, keys[1..])
  }

  /** The `disconnect` handler: the sweep over `streamViewers` in its iteration order. */
  function Disconnect(r: Registry, socket: SocketId): (s: Step)
    ensures |s.events| <= |r.order|
    ensures s.reg.stats.Keys == r.stats.Keys
    ensures forall k :: k !in r.order ==> Members(s.reg, k) == Members(r, k)
  {
    Sweep(r, socket, r.order)
  }

  /** The rooms among `keys` that `socket` watches in `r`, in the order of `keys`. */
  function Watched(r: Registry, socket: SocketId, keys: seq<StreamKey>): (w: seq<StreamKey>)
    ensures forall k :: k in w <==> k in keys && socket in Members(r, k)
    ensures NoDup(keys) ==> NoDup(w)
  {
    if |keys| == 0 then []
    else
      var rest := Watched(r, socket, keys[1..]);
      assert forall k :: k in rest ==> k in keys[1..];
      if socket in Members(r, keys[0]) then [keys[0]] + rest else rest
  }

  /** The broadcasts a disconnect is expected to make, read off the registry before it:
      for each watched room, its count without `socket` and its unchanged peak. */
  function Expected(r: Registry, socket: SocketId, keys: seq<StreamKey>): (es: seq<ViewerCount>)
    ensures |es| == |keys|
  {
    if |keys| == 0 then []
    else [ViewerCount(keys[0], |Members(r, keys[0]) - {socket}|, PeakOf(r, keys[0]))]
         + Expected(r, socket, keys[1..])
  }

  lemma {:induction false} ExpectedFrame(r1: Registry, r2: Registry, socket: SocketId,
                                         keys: seq<StreamKey>)
    requires forall k :: k in keys ==>
               Members(r1, k) == Members(r2, k) && PeakOf(r1, k) == PeakOf(r2, k)
    ensures Expected(r1, socket, keys) == Expected(r2, socket, keys)
    decreases |keys|
  {
    if |keys| > 0 {
      ExpectedFrame(r1, r2, socket, keys[1..]);
    }
  }

  lemma {:induction false} WatchedFrame(r1: Registry, r2: Registry, socket: SocketId,
                                        keys: seq<StreamKey>)
    requires forall k :: k in keys ==> Members(r1, k) == Members(r2, k)
    ensures Watched(r1, socket, keys) == Watched(r2, socket, keys)
    decreases |keys|
  {
    if |keys| > 0 {
      WatchedFrame(r1, r2, socket, keys[1..]);
    }
  }

  lemma NoDupTail<T>(s: seq<T>)
    requires NoDup(s) && |s| > 0
    ensures NoDup(s[1..]) && s[0] !in s[1..]
  {}

  /** A sweep leaves the history exactly as it was and the registry consistent. */
  lemma {:induction false} SweepKeepsState(r: Registry, socket: SocketId, keys: seq<StreamKey>)
    requires Valid(r)
    ensures Valid(Sweep(r, socket, keys).reg)
    ensures SameHistory(r, Sweep(r, socket, keys).reg)
    decreases |keys|
  {
    if |keys| > 0 {
      if socket in Members(r, keys[0]) {
        var first := Leave(r, socket, keys[0]);
        LeavePreservesValid(r, socket, keys[0]);
        SweepKeepsState(first.reg, socket, keys[1..]);
      } else {
        SweepKeepsState(r, socket, keys[1..]);
      }
    }
  }

  /** A sweep over distinct keys takes the socket out of exactly the visited rooms. */
  lemma {:induction false} SweepMembers(r: Registry, socket: SocketId, keys: seq<StreamKey>)
    requires NoDup(keys)
    ensures forall k :: k in keys ==> Members(Sweep(r, socket, keys).reg, k) == Members(r, k) - {socket}
    ensures forall k :: k !in keys ==> Members(Sweep(r, socket, keys).reg, k) == Members(r, k)
    decreases |keys|
  {
    if |keys| > 0 {
      NoDupTail(keys);
      if socket in Members(r, keys[0]) {
        SweepMembers(Leave(r, socket, keys[0]).reg, socket, keys[1..]);
      } else {
        SweepMembers(r, socket, keys[1..]);
      }
    }
  }

  /** A sweep over distinct keys broadcasts once per visited room that held the socket. */
  lemma {:induction false} SweepEvents(r: Registry, socket: SocketId, keys: seq<StreamKey>)
    requires NoDup(keys)
    ensures Sweep(r, socket, keys).events == Expected(r, socket, Watched(r, socket, keys))
    decreases |keys|
  {
    if |keys| > 0 {
      var key := keys[0];
      var tail := keys[1..];
      NoDupTail(keys);
      if socket in Members(r, key) {
        var first := Leave(r, socket, key);
        SweepEvents(first.reg, socket, tail);
        WatchedFrame(first.reg, r, socket, tail);
        ExpectedFrame(first.reg, r, socket, Watched(r, socket, tail));
      } else {
        SweepEvents(r, socket, tail);
      }
    }
  }

  /** The disconnect handler keeps the registry consistent and the history unchanged. */
  lemma DisconnectKeepsState(r: Registry, socket: SocketId)
    requires Valid(r)
    ensures Valid(Disconnect(r, socket).reg)
    ensures SameHistory(r, Disconnect(r, socket).reg)
  {
    SweepKeepsState(r, socket, r.order);
  }

  /** After a disconnect the socket watches nothing, and every other socket watches what it
      watched before. */
  lemma DisconnectMembers(r: Registry, socket: SocketId)
    requires Valid(r)
    ensures forall k :: socket !in Members(Disconnect(r, socket).reg, k)
    ensures forall k, x :: x != socket ==>
              (x in Members(Disconnect(r, socket).reg, k) <==> x in Members(r, k))
  {
    SweepMembers(r, socket, r.order);
    var after := Disconnect(r, socket).reg;
    forall k ensures Members(after, k) == Members(r, k) - {socket} {
      if k !in r.order {
        assert Members(r, k) == {};
      }
    }
  }

  /** The disconnect handler processes exactly the rooms that held the socket, each once, in
      iteration order, broadcasting the room's new count and its unchanged peak. */
  lemma DisconnectEvents(r: Registry, socket: SocketId)
    requires Valid(r)
    ensures var s := Disconnect(r, socket);
            var w := Watched(r, socket, r.order);
            && (forall k :: k in w <==> socket in Members(r, k))
            && NoDup(w)
            && |s.events| == |w|
            && (forall i :: 0 <= i < |s.events| ==>
                  s.events[i] == ViewerCount(w[i], |Members(s.reg, w[i])|, PeakOf(r, w[i])))
  {
    SweepEvents(r, socket, r.order);
    SweepMembers(r, socket, r.order);
    var s := Disconnect(r, socket);
    var w := Watched(r, socket, r.order);
    forall i | 0 <= i < |s.events|
      ensures s.events[i] == ViewerCount(w[i], |Members(s.reg, w[i])|, PeakOf(r, w[i]))
    {
      ExpectedIndex(r, socket, w, i);
    }
  }

  lemma {:induction false} ExpectedIndex(r: Registry, socket: SocketId,
                                         keys: seq<StreamKey>, i: nat)
    requires i < |keys|
    ensures Expected(r, socket, keys)[i]
         == ViewerCount(keys[i], |Members(r, keys[i]) - {socket}|, PeakOf(r, keys[i]))
    decreases i
  {
    if i > 0 {
      ExpectedIndex(r, socket, keys[1..], i - 1);
    }
  }

  // ---------------------------------------------------------------------------
  // Whole runs of socket events
  // ---------------------------------------------------------------------------

  /** A socket event reaching the server. */
  datatype Event =
    | JoinStream(socket: SocketId, key: StreamKey, now: int)
    | LeaveStream(socket: SocketId, key: StreamKey)
    | Disconnected(socket: SocketId)

  function Apply(r: Registry, e: Event): Step {
    match e
    case JoinStream(socket, key, now) => Join(r, socket, key, now)
    case LeaveStream(socket, key) => Leave(r, socket, key)
    case Disconnected(socket) => Disconnect(r, socket)
  }

  /** Events handled one at a time, broadcasts concatenated in emission order. */
  function Run(r: Registry, es: seq<Event>): Step
    decreases |es|
  {
    if |es| == 0 then Step(r, [])
    else
      var first := Apply(r, es[0]);
      var rest := Run(first.reg, es[1..]);
      Step(rest.reg, first.events + rest.events)
  }

  /** Every broadcast reports a peak no smaller than its count. */
  ghost predicate SaneEvents(es: seq<ViewerCount>) {
    forall i :: 0 <= i < |es| ==> es[i].viewers <= es[i].peakViewers
  }

  lemma ApplyPreserves(r: Registry, e: Event)
    requires Valid(r)
    ensures Valid(Apply(r, e).reg)
    ensures HistoryKept(r, Apply(r, e).reg)
    ensures SaneEvents(Apply(r, e).events)
  {
    match e
    case JoinStream(socket, key, now) =>
      JoinPreservesValid(r, socket, key, now);
    case LeaveStream(socket, key) =>
      LeavePreservesValid(r, socket, key);
    case Disconnected(socket) =>
      DisconnectSane(r, socket);
  }

  lemma DisconnectSane(r: Registry, socket: SocketId)
    requires Valid(r)
    ensures Valid(Disconnect(r, socket).reg)
    ensures HistoryKept(r, Disconnect(r, socket).reg)
    ensures SaneEvents(Disconnect(r, socket).events)
  {
    DisconnectKeepsState(r, socket);
    DisconnectEvents(r, socket);
    var s := Disconnect(r, socket);
    var w := Watched(r, socket, r.order);
    forall i | 0 <= i < |s.events| ensures s.events[i].viewers <= s.events[i].peakViewers {
      var k := w[i];
      assert k in r.stats;
      assert |Members(s.reg, k)| == s.reg.stats[k].viewers;
    }
  }

  /** From any consistent registry, any run of join/leave/disconnect events keeps it
      consistent, never lowers a peak or loses a start time, and only broadcasts counts
      bounded by their peaks. */
  lemma {:induction false} RunPreserves(r: Registry, es: seq<Event>)
    requires Valid(r)
    ensures Valid(Run(r, es).reg)
    ensures HistoryKept(r, Run(r, es).reg)
    ensures SaneEvents(Run(r, es).events)
    decreases |es|
  {
    if |es| > 0 {
      var first := Apply(r, es[0]);
      ApplyPreserves(r, es[0]);
      RunPreserves(first.reg, es[1..]);
      HistoryKeptTransitive(r, first.reg, Run(first.reg, es[1..]).reg);
    }
  }

  // ---------------------------------------------------------------------------
  // GET /api/viewers/:streamKey?
  // ---------------------------------------------------------------------------

  /** One room's statistics as served; `startTime` is `null` for an unknown room. */
  datatype Snapshot = Snapshot(viewers: nat, peakViewers: nat, startTime: Option<int>)

  datatype ViewersResponse =
    | OneStream(streamKey: StreamKey, snapshot: Snapshot)
    | AllStreams(snapshots: map<StreamKey, Snapshot>)

  /** `GET /api/viewers/:streamKey`: the stored statistics (whose `viewers` field overrides
      the set size computed first), or zeroes and a null start time. */
  function StreamSnapshot(r: Registry, key: StreamKey): (v: Snapshot)
    ensures Valid(r) ==> v.viewers == |Members(r, key)|
    ensures key in r.stats ==>
              v.peakViewers == r.stats[key].peakViewers && v.startTime == Some(r.stats[key].startTime)
    ensures key !in r.stats ==> v == Snapshot(0, 0, None)
  {
    if key in r.stats then
      var st := r.stats[key];
      Snapshot(st.viewers, st.peakViewers, Some(st.startTime))
    else Snapshot(0, 0, None)
  }

  /** The one key a plain JavaScript object cannot hold as its own property: assigning to
      `obj["__proto__"]` replaces the object's prototype instead, and `JSON.stringify` then
      leaves the entry out. */
  const ProtoKey := "__proto__"

  /** `GET /api/viewers`: every stream that ever had statistics, emptied rooms included,
      with `viewers` recomputed from the current set. The answer is built in a plain object
      literal, so a stream keyed `__proto__` is missing from it. */
  function AllSnapshots(r: Registry): (m: map<StreamKey, Snapshot>)
    ensures m.Keys == r.stats.Keys - {ProtoKey}
    ensures forall k :: k in m ==> m[k].viewers == |Members(r, k)|
    ensures forall k :: k in m ==>
              m[k].peakViewers == r.stats[k].peakViewers && m[k].startTime == Some(r.stats[k].startTime)
    ensures Valid(r) ==> forall k :: k in m ==> m[k] == StreamSnapshot(r, k)
  {
    map k | k in r.stats && k != ProtoKey :: Snapshot(|Members(r, k)|, r.stats[k].peakViewers, Some(r.stats[k].startTime))
  }

  /** The route: a missing or empty (falsy) parameter selects the all-streams form. */
  function Viewers(r: Registry, param: Option<StreamKey>): (resp: ViewersResponse)
    ensures param.Some? && param.value != "" ==>
              resp == OneStream(param.value, StreamSnapshot(r, param.value))
    ensures param.None? || param.value == "" ==> resp == AllStreams(AllSnapshots(r))
  {
    match param
    case Some(key) => if key != "" then OneStream(key, StreamSnapshot(r, key)) else AllStreams(AllSnapshots(r))
    case None => AllStreams(AllSnapshots(r))
  }

  /** On a consistent registry the two forms of the route agree: the one-stream answer for a
      key is that key's entry of the all-streams answer, and a key without statistics is
      absent from the latter and answered with zeroes by the former. */
  lemma ViewersAgree(r: Registry, key: StreamKey)
    requires Valid(r) && key != "" && key != ProtoKey
    ensures Viewers(r, Some(key)).OneStream?
    ensures Viewers(r, None).AllStreams?
    ensures key in r.stats ==>
              && key in Viewers(r, None).snapshots
              && Viewers(r, Some(key)).snapshot == Viewers(r, None).snapshots[key]
    ensures key !in r.stats ==>
              && key !in Viewers(r, None).snapshots
              && Viewers(r, Some(key)).snapshot == Snapshot(0, 0, None)
  {}

  /** The registry holding the single room "stream" with `members`, `viewers` and `peak`,
      opened at time 10. */
  function OneRoom(members: set<SocketId>, viewers: nat, peak: nat): Registry {
    Registry(map["stream" := members], ["stream"], map["stream" := Stats(viewers, peak, 10)])
  }

  lemma ScenarioJoins()
    ensures Run(Empty, [JoinStream("A", "stream", 10), JoinStream("B", "stream", 20)])
            == Step(OneRoom({"A", "B"}, 2, 2), [ViewerCount("stream", 1, 1), ViewerCount("stream", 2, 2)])
  {
    var j1 := Join(Empty, "A", "stream", 10);
    assert j1 == Step(OneRoom({"A"}, 1, 1), [ViewerCount("stream", 1, 1)]);
    var j2 := Join(j1.reg, "B", "stream", 20);
    assert "A" != "B" && {"A"} + {"B"} == {"A", "B"};
    assert |{"A", "B"}| == 2;
    assert j2 == Step(OneRoom({"A", "B"}, 2, 2), [ViewerCount("stream", 2, 2)]);
  }

  lemma ScenarioLeaveAndJoin()
    ensures Run(OneRoom({"A", "B"}, 2, 2), [LeaveStream("B", "stream"), JoinStream("C", "stream", 30)])
            == Step(OneRoom({"A", "C"}, 2, 2), [ViewerCount("stream", 1, 2), ViewerCount("stream", 2, 2)])
  {
    var l := Leave(OneRoom({"A", "B"}, 2, 2), "B", "stream");
    assert {"A", "B"} - {"B"} == {"A"};
    assert l == Step(OneRoom({"A"}, 1, 2), [ViewerCount("stream", 1, 2)]);
    var j := Join(l.reg, "C", "stream", 30);
    assert "A" != "C" && {"A"} + {"C"} == {"A", "C"};
    assert |{"A", "C"}| == 2;
    assert j == Step(OneRoom({"A", "C"}, 2, 2), [ViewerCount("stream", 2, 2)]);
  }

  lemma ScenarioDisconnect()
    ensures Run(OneRoom({"A", "C"}, 2, 2), [Disconnected("A")])
            == Step(OneRoom({"C"}, 1, 2), [ViewerCount("stream", 1, 2)])
  {
    var r := OneRoom({"A", "C"}, 2, 2);
    var l := Leave(r, "A", "stream");
    assert {"A", "C"} - {"A"} == {"C"};
    assert l == Step(OneRoom({"C"}, 1, 2), [ViewerCount("stream", 1, 2)]);
    assert r.order[1..] == [];
    assert Sweep(l.reg, "A", []) == Step(l.reg, []);
    assert Disconnect(r, "A") == l;
  }

  /** Two sockets join, one leaves, a third joins, the first disconnects: the count goes
      1, 2, 1, 2, 1 while the peak climbs to 2 and stays there, and the room keeps the time
      of its first join. */
  lemma Scenario()
    ensures var s1 := Run(Empty, [JoinStream("A", "stream", 10), JoinStream("B", "stream", 20)]);
            && s1.events == [ViewerCount("stream", 1, 1), ViewerCount("stream", 2, 2)]
            && var s2 := Run(s1.reg, [LeaveStream("B", "stream"), JoinStream("C", "stream", 30)]);
               && s2.events == [ViewerCount("stream", 1, 2), ViewerCount("stream", 2, 2)]
               && var s3 := Run(s2.reg, [Disconnected("A")]);
                  && s3.events == [ViewerCount("stream", 1, 2)]
                  && StreamSnapshot(s3.reg, "stream") == Snapshot(1, 2, Some(10))
  {
    ScenarioJoins();
    ScenarioLeaveAndJoin();
    ScenarioDisconnect();
  }
}

=== FILE: runtime.dfy ===
/**
 The parts of the Kotlin/JVM and JavaScript runtime libraries that the modelled code
 relies on: optional values, blank strings, `take`/`takeLast`, integer division that
 truncates toward zero, and decimal rendering of integers (`Long.toString`, `%02d`).
 */
module Runtime {

  /** An absent or present value (`null` / JSON field missing vs. present). */
  datatype Option<+T> = None | Some(value: T) {
    /** Kotlin's `?:`: the value, or `default` when absent. */
    function GetOr(default: T): T {
      match this
      case Some(v) => v
      case None => default
    }
  }

  function Min(a: int, b: int): int { if a <= b then a else b }
  function Max(a: int, b: int): int { if a >= b then a else b }

  // ---------------------------------------------------------------------------
  // Strings
  // ---------------------------------------------------------------------------

  /** Kotlin's `Char.isWhitespace` on the JVM: `Character.isWhitespace` or
      `Character.isSpaceChar`. */
  predicate IsWhitespace(c: char)
    ensures c == ' ' || c == '\t' || c == '\n' || c == '\r' ==> IsWhitespace(c)
    ensures '!' <= c <= '~' ==> !IsWhitespace(c)
  {
    var n := c as int;
    || 9 <= n <= 13 || 28 <= n <= 32 || n == 0xA0 || n == 0x1680
    || 0x2000 <= n <= 0x200A || n == 0x2028 || n == 0x2029
    || n == 0x202F || n == 0x205F || n == 0x3000
  }

  /** Kotlin's `isBlank`: empty or whitespace only. */
  predicate IsBlank(s: string)
    ensures |s| == 0 ==> IsBlank(s)
    ensures (exists i :: 0 <= i < |s| && '!' <= s[i] <= '~') ==> !IsBlank(s)
  {
    forall i :: 0 <= i < |s| ==> IsWhitespace(s[i])
  }

  /** Kotlin's `ifBlank { default }`. */
  function IfBlank(s: string, default: string): (r: string)
    ensures !IsBlank(s) ==> r == s
    ensures IsBlank(s) ==> r == default
    ensures !IsBlank(default) ==> !IsBlank(r)
  {
    if IsBlank(s) then default else s
  }

  /** Kotlin's `take(n)`: the first `n` elements, or all of them when there are fewer. */
  function Take<T>(s: seq<T>, n: nat): (r: seq<T>)
    ensures |r| == Min(n, |s|)
    ensures r <= s
  {
    if |s| <= n then s else s[..n]
  }

  /** Kotlin's `takeLast(n)`: the last `n` elements, or all of them when there are fewer. */
  function TakeLast<T>(s: seq<T>, n: nat): (r: seq<T>)
    ensures |r| == Min(n, |s|)
    ensures forall i :: 0 <= i < |r| ==> r[i] == s[|s| - |r| + i]
  {
    if |s| <= n then s else s[|s| - n..]
  }

  /** Appending one element to a sequence slides its last-`n` window by one. */
  lemma TakeLastSnoc<T>(s: seq<T>, x: T, n: nat)
    requires n > 0
    ensures |s| < n ==> TakeLast(s + [x], n) == s + [x]
    ensures |s| >= n ==> TakeLast(s + [x], n) == TakeLast(s, n)[1..] + [x]
  {
    if |s| >= n {
      var t := s + [x];
      assert TakeLast(t, n) == t[|t| - n..];
      assert TakeLast(s, n) == s[|s| - n..];
      assert t[|t| - n..] == s[|s| - n + 1..] + [x];
    }
  }

  /** Keeping the last `n` of all but the last element, then appending the last one and
      keeping the last `n` again, gives the last `n` of the whole. */
  lemma TakeLastOfWindow<T>(s: seq<T>, n: nat)
    requires |s| > 0
    ensures TakeLast(TakeLast(s[..|s| - 1], n) + [s[|s| - 1]], n) == TakeLast(s, n)
  {
    var init, x := s[..|s| - 1], s[|s| - 1];
    assert init + [x] == s;
    if |init| > n {
      var w := init[|init| - n..];
      assert TakeLast(init, n) == w;
      assert (w + [x])[|w + [x]| - n..] == s[|s| - n..];
    }
  }

  // ---------------------------------------------------------------------------
  // Integer arithmetic of Kotlin `Long`
  // ---------------------------------------------------------------------------

  function Abs(a: int): nat { if a < 0 then -a else a }

  /** Kotlin's `a / b`: the quotient rounded toward zero (Dafny's `/` is Euclidean, and the
      two differ exactly when `a` is negative and not a multiple of `b`). */
  function TDiv(a: int, b: int): (q: int)
    requires b > 0
    ensures a >= 0 ==> q == a / b
    ensures Abs(q) == Abs(a) / b
    ensures a <= 0 ==> q <= 0
  {
    if a >= 0 then a / b else -((-a) / b)
  }

  /** Kotlin's `a % b`: the remainder takes the sign of `a`. */
  function TMod(a: int, b: int): (m: int)
    requires b > 0
    ensures a >= 0 ==> m == a % b
    ensures a < 0 ==> m == -((-a) % b)
  {
    a - TDiv(a, b) * b
  }

  // ---------------------------------------------------------------------------
  // Decimal rendering and reading
  // ---------------------------------------------------------------------------

  predicate IsDigit(c: char) { '0' <= c <= '9' }

  predicate AllDigits(s: string) {
    forall i :: 0 <= i < |s| ==> IsDigit(s[i])
  }

  function DigitChar(d: nat): (c: char)
    requires d < 10
    ensures IsDigit(c)
  {
    ['0', '1', '2', '3', '4', '5', '6', '7', '8', '9'][d]
  }

  function DigitValue(c: char): (d: nat)
    requires IsDigit(c)
    ensures d < 10
  {
    (c as int) - ('0' as int)
  }

  /** The decimal digits of `n`, without leading zeros. */
  function Digits(n: nat): (s: string)
    ensures |s| >= 1
    ensures AllDigits(s)
    ensures n < 10 <==> |s| == 1
    decreases n
  {
    if n < 10 then [DigitChar(n)] else Digits(n / 10) + [DigitChar(n % 10)]
  }

  /** The value of a string of decimal digits (the empty string reads as 0). */
  function ReadDigits(s: string): nat
    requires AllDigits(s)
  {
    if |s| == 0 then 0 else 10 * ReadDigits(s[..|s| - 1]) + DigitValue(s[|s| - 1])
  }

  lemma {:induction false} ReadDigitsOfDigits(n: nat)
    ensures ReadDigits(Digits(n)) == n
    decreases n
  {
    var s := Digits(n);
    if n >= 10 {
      ReadDigitsOfDigits(n / 10);
      assert s[..|s| - 1] == Digits(n / 10);
      assert DigitValue(DigitChar(n % 10)) == n % 10;
    } else {
      assert DigitValue(DigitChar(n)) == n;
    }
  }

  /** A leading zero does not change the value read. */
  lemma {:induction false} ReadDigitsLeadingZero(s: string)
    requires AllDigits(s)
    ensures AllDigits("0" + s)
    ensures ReadDigits("0" + s) == ReadDigits(s)
    decreases |s|
  {
    var t := "0" + s;
    assert AllDigits(t) by {
      forall i | 0 <= i < |t| ensures IsDigit(t[i]) {
        if i > 0 { assert t[i] == s[i - 1]; }
      }
    }
    if |s| > 0 {
      assert t[..|t| - 1] == "0" + s[..|s| - 1];
      ReadDigitsLeadingZero(s[..|s| - 1]);
    }
  }

  /** `Long.toString()`. */
  function LongToString(n: int): (s: string)
    ensures |s| >= 1
    ensures n >= 0 ==> s == Digits(n)
    ensures n < 0 ==> s == "-" + Digits(-n)
  {
    if n >= 0 then Digits(n) else "-" + Digits(-n)
  }

  /** `String.format("%02d", n)`: zero-padded to width two, the sign counting toward the
      width, so a negative value is never padded. */
  function Pad2(n: int): (s: string)
    ensures |s| >= 2
    ensures 0 <= n < 100 ==> |s| == 2
    ensures n >= 0 ==> AllDigits(s)
    ensures n < 0 ==> s == LongToString(n)
    ensures ':' !in s
  {
    var s := if 0 <= n < 10 then "0" + Digits(n) else LongToString(n);
    assert forall i :: 0 <= i < |s| ==> s[i] == '-' || IsDigit(s[i]);
    s
  }

  /** Reading back a padded non-negative field gives the number rendered. */
  lemma ReadPad2(n: nat)
    ensures ReadDigits(Pad2(n)) == n
  {
    ReadDigitsOfDigits(n);
    if n < 10 { ReadDigitsLeadingZero(Digits(n)); }
  }
}

=== FILE: stream_config.dfy ===
/**
 The encoder configuration of the Android app (StreamConfig.kt): the `StreamConfig` record
 with its defaults, the full RTMP URL, the four quality presets, and the `StreamState` and
 `StreamStats` types the stream manager publishes.
 */
module Config {
  import opened Runtime

  const DefaultRtmpUrl := "rtmp://3.134.159.236:1935/live"
  const DefaultStreamKey := "stream"

  /** Bitrates in bits per second, sample rate in Hz. */
  datatype StreamConfig = StreamConfig(
    rtmpUrl: string,
    streamKey: string,
    videoWidth: int,
    videoHeight: int,
    videoBitrate: int,
    videoFps: int,
    audioBitrate: int,
    audioSampleRate: int,
    audioIsStereo: bool)

  /** `StreamConfig()` with every parameter left at its default. */
  const Default := StreamConfig(DefaultRtmpUrl, DefaultStreamKey, 1280, 720, 2500000, 30,
                                128000, 44100, true)

  /** `getFullRtmpUrl()`. */
  function FullRtmpUrl(c: StreamConfig): (u: string)
    ensures |u| == |c.rtmpUrl| + 1 + |c.streamKey|
    ensures u[..|c.rtmpUrl|] == c.rtmpUrl && u[|c.rtmpUrl|] == '/'
    ensures u[|c.rtmpUrl| + 1..] == c.streamKey
  {
    c.rtmpUrl + "/" + c.streamKey
  }

  /** The position of the last '/' of `s`, if any. */
  function LastSlash(s: string): (r: Option<nat>)
    ensures r.Some? ==> r.value < |s| && s[r.value] == '/'
                        && forall i :: r.value < i < |s| ==> s[i] != '/'
    ensures r.None? ==> '/' !in s
  {
    if |s| == 0 then None
    else if s[|s| - 1] == '/' then Some(|s| - 1)
    else LastSlash(s[..|s| - 1])
  }

  /** Splits a full URL back into server URL and stream key at its last '/'. */
  function SplitRtmpUrl(url: string): Option<(string, string)> {
    match LastSlash(url)
    case Some(i) => Some((url[..i], url[i + 1..]))
    case None => None
  }

  /** The full URL determines the server URL and the stream key whenever the key holds no
      '/' (the URL itself may hold any number). */
  lemma {:induction false} FullRtmpUrlSplits(c: StreamConfig)
    requires '/' !in c.streamKey
    ensures SplitRtmpUrl(FullRtmpUrl(c)) == Some((c.rtmpUrl, c.streamKey))
  {
    var url := FullRtmpUrl(c);
    var n := |c.rtmpUrl|;
    assert url[n] == '/';
    var last := LastSlash(url);
    assert last.Some? by { assert '/' in url; }
    assert forall i :: n < i < |url| ==> url[i] == c.streamKey[i - n - 1];
    assert last.value == n;
    assert url[..n] == c.rtmpUrl;
    assert url[n + 1..] == c.streamKey;
  }

  /** The quality levels, from the lowest bitrate to the highest. */
  datatype Quality = Low | Medium | High | Ultra

  /** `LOW_QUALITY`, `MEDIUM_QUALITY`, `HIGH_QUALITY`, `ULTRA_QUALITY`: each overrides the
      video and audio parameters and keeps the default URL and stream key. */
  function Preset(q: Quality): (c: StreamConfig)
    ensures c.rtmpUrl == DefaultRtmpUrl && c.streamKey == DefaultStreamKey
    ensures FullRtmpUrl(c) == DefaultRtmpUrl + "/stream"
    ensures c.audioIsStereo <==> q != Low
  {
    match q
    case Low => Default.(videoWidth := 854, videoHeight := 480, videoBitrate := 500000,
                         videoFps := 15, audioBitrate := 64000, audioSampleRate := 22050,
                         audioIsStereo := false)
    case Medium => Default.(videoWidth := 1280, videoHeight := 720, videoBitrate := 1500000,
                            videoFps := 24, audioBitrate := 96000, audioSampleRate := 44100,
                            audioIsStereo := true)
    case High => Default.(videoWidth := 1280, videoHeight := 720, videoBitrate := 2500000,
                          videoFps := 30, audioBitrate := 128000, audioSampleRate := 44100,
                          audioIsStereo := true)
    case Ultra => Default.(videoWidth := 1920, videoHeight := 1080, videoBitrate := 4000000,
                           videoFps := 30, audioBitrate := 128000, audioSampleRate := 48000,
                           audioIsStereo := true)
  }

  function Rank(q: Quality): nat {
    match q
    case Low => 0
    case Medium => 1
    case High => 2
    case Ultra => 3
  }

  /** Same video and audio parameters (the URL and key aside). */
  predicate SameMedia(a: StreamConfig, b: StreamConfig) {
    && a.videoWidth == b.videoWidth && a.videoHeight == b.videoHeight
    && a.videoBitrate == b.videoBitrate && a.videoFps == b.videoFps
    && a.audioBitrate == b.audioBitrate && a.audioSampleRate == b.audioSampleRate
    && a.audioIsStereo == b.audioIsStereo
  }

  /** The defaults are the high preset: same media parameters, and since no preset touches
      the URL or the key, the very same configuration. */
  lemma DefaultIsHigh()
    ensures SameMedia(Default, Preset(High))
    ensures Default == Preset(High)
  {}

  /** A higher preset always streams video at a strictly higher bitrate, and never at a lower
      frame rate, resolution or audio bitrate. */
  lemma PresetsOrdered(q1: Quality, q2: Quality)
    requires Rank(q1) < Rank(q2)
    ensures Preset(q1).videoBitrate < Preset(q2).videoBitrate
    ensures Preset(q1).videoFps <= Preset(q2).videoFps
    ensures Preset(q1).videoHeight <= Preset(q2).videoHeight
    ensures Preset(q1).audioBitrate <= Preset(q2).audioBitrate
  {}

  /** The low preset is 854x480 at 15 fps with 64 kbps mono audio at 22050 Hz, as its
      code sets, and the only mono one. */
  lemma LowPreset(q: Quality)
    ensures var c := Preset(Low);
            c.videoWidth == 854 && c.videoHeight == 480 && c.videoFps == 15
            && c.videoBitrate == 500000 && c.audioBitrate == 64000
            && c.audioSampleRate == 22050 && !c.audioIsStereo
    ensures !Preset(q).audioIsStereo ==> q == Low
  {}

  /** `StreamState`. */
  datatype StreamState = Idle | Preparing | Streaming | Paused | Stopped | Error

  /** `StreamStats`: `fps` is a Kotlin `Double`, only ever copied here. */
  datatype StreamStats = StreamStats(fps: real, bitrate: int, droppedFrames: int,
                                     duration: int, isConnected: bool)

  const DefaultStats := StreamStats(0.0, 0, 0, 0, false)
}

=== FILE: stream_manager.dfy ===
/**
 The RTMP stream manager of the Android app (StreamManager.kt).

 The encoder library's camera object is abstracted as a record of the flags the manager
 reads (`isStreaming`, `isOnPreview`, `isAudioMuted`) and of how its fallible calls turn out
 (whether encoder preparation succeeds, whether `startStream` throws and with what message).
 Starting a stream sets the camera's streaming flag and stopping it clears it; the library's
 connection callbacks arrive later, as separate transitions. The wall clock is the explicit
 parameter `now`, in milliseconds.
 */
module Manager {
  import opened Runtime
  import opened Config

  /** The camera/encoder as far as the manager can observe it. */
  datatype Camera = Camera(
    isStreaming: bool,
    isOnPreview: bool,
    isAudioMuted: bool,
    prepareSucceeds: bool,
    startFailure: Option<string>)

  /** The manager's fields: `rtmpCamera`, `streamState`, `streamStats`, `errorMessage`,
      `currentConfig`, `streamStartTime`. */
  datatype Manager = Manager(
    camera: Option<Camera>,
    state: StreamState,
    stats: StreamStats,
    error: Option<string>,
    config: StreamConfig,
    startTime: int)

  /** A manager right after construction and `initialize` with `camera` (`None` when the
      camera could not be created). */
  function Fresh(camera: Option<Camera>): Manager {
    Manager(camera, Idle, DefaultStats, None, Preset(High), 0)
  }

  /** `isStreaming()`: there is a camera and it is streaming. */
  predicate IsStreaming(m: Manager)
    ensures m.camera.None? ==> !IsStreaming(m)
  {
    m.camera.Some? && m.camera.value.isStreaming
  }

  /** `isAudioMuted()`. */
  predicate IsAudioMuted(m: Manager)
    ensures m.camera.None? ==> !IsAudioMuted(m)
  {
    m.camera.Some? && m.camera.value.isAudioMuted
  }

  // ---------------------------------------------------------------------------
  // Connection callbacks
  // ---------------------------------------------------------------------------

  /** `onConnectionStartedRtmp`: only the state changes, to PREPARING. */
  function OnConnectionStarted(m: Manager): (r: Manager)
    ensures r.state == Preparing && r.(state := m.state) == m
  {
    m.(state := Preparing)
  }

  /** `onConnectionSuccessRtmp` at time `now`: streaming, started now, connected; every other
      statistic is kept. */
  function OnConnectionSuccess(m: Manager, now: int): (r: Manager)
    ensures r.state == Streaming && r.startTime == now
    ensures r.stats.isConnected
    ensures r.stats.(isConnected := m.stats.isConnected) == m.stats
    ensures r.(state := m.state, startTime := m.startTime, stats := m.stats) == m
  {
    m.(state := Streaming, startTime := now, stats := m.stats.(isConnected := true))
  }

  /** `onConnectionFailedRtmp(reason)`. */
  function OnConnectionFailed(m: Manager, reason: string): (r: Manager)
    ensures r.state == Error && r.error == Some("Error de conexión: " + reason)
    ensures !r.stats.isConnected
    ensures r.stats.(isConnected := m.stats.isConnected) == m.stats
    ensures r.(state := m.state, error := m.error, stats := m.stats) == m
  {
    m.(state := Error, error := Some("Error de conexión: " + reason),
       stats := m.stats.(isConnected := false))
  }

  /** `onNewBitrateRtmp(bitrate)`: only the bitrate statistic changes. */
  function OnNewBitrate(m: Manager, bitrate: int): (r: Manager)
    ensures r.stats.bitrate == bitrate
    ensures r.(stats := r.stats.(bitrate := m.stats.bitrate)) == m
  {
    m.(stats := m.stats.(bitrate := bitrate))
  }

  /** `onDisconnectRtmp`. */
  function OnDisconnect(m: Manager): (r: Manager)
    ensures r.state == Stopped && !r.stats.isConnected
    ensures r.(state := m.state, stats := r.stats.(isConnected := m.stats.isConnected)) == m
  {
    m.(state := Stopped, stats := m.stats.(isConnected := false))
  }

  /** `onAuthErrorRtmp`; the connection flag is left as it was. */
  function OnAuthError(m: Manager): (r: Manager)
    ensures r.state == Error && r.error == Some("Error de autenticación con el servidor")
    ensures r.(state := m.state, error := m.error) == m
  {
    m.(state := Error, error := Some("Error de autenticación con el servidor"))
  }

  /** The connection callbacks of the encoder library; `onAuthSuccessRtmp` only logs. */
  datatype Callback =
    | Started
    | Succeeded(now: int)
    | Failed(reason: string)
    | Bitrate(bitrate: int)
    | Disconnected
    | AuthFailed
    | AuthSucceeded

  function Notify(m: Manager, c: Callback): (r: Manager)
    ensures c.Started? ==> r == OnConnectionStarted(m)
    ensures c.Succeeded? ==> r == OnConnectionSuccess(m, c.now)
    ensures c.Failed? ==> r == OnConnectionFailed(m, c.reason)
    ensures c.Bitrate? ==> r == OnNewBitrate(m, c.bitrate)
    ensures c.Disconnected? ==> r == OnDisconnect(m)
    ensures c.AuthFailed? ==> r == OnAuthError(m)
    ensures c.AuthSucceeded? ==> r == m
    ensures r.camera == m.camera && r.config == m.config
    ensures c.Succeeded? ==> r.startTime == c.now
    ensures !c.Succeeded? ==> r.startTime == m.startTime
  {
    match c
    case Started => OnConnectionStarted(m)
    case Succeeded(now) => OnConnectionSuccess(m, now)
    case Failed(reason) => OnConnectionFailed(m, reason)
    case Bitrate(bitrate) => OnNewBitrate(m, bitrate)
    case Disconnected => OnDisconnect(m)
    case AuthFailed => OnAuthError(m)
    case AuthSucceeded => m
  }

  /** The callbacks `cs`, delivered in order. */
  function NotifyAll(m: Manager, cs: seq<Callback>): Manager
    decreases |cs|
  {
    if |cs| == 0 then m else Notify(NotifyAll(m, cs[..|cs| - 1]), cs[|cs| - 1])
  }

  /** The time of the last successful connection among `cs`, if any. */
  function LastSuccess(cs: seq<Callback>): Option<int>
    decreases |cs|
  {
    if |cs| == 0 then None
    else if cs[|cs| - 1].Succeeded? then Some(cs[|cs| - 1].now)
    else LastSuccess(cs[..|cs| - 1])
  }

  /** No sequence of connection callbacks touches the camera or the configuration, so
      whether the manager streams is decided by the start and stop commands alone; the
      start time is that of the last successful connection. */
  lemma {:induction false} CallbacksKeepCamera(m: Manager, cs: seq<Callback>)
    ensures NotifyAll(m, cs).camera == m.camera && NotifyAll(m, cs).config == m.config
    ensures IsStreaming(NotifyAll(m, cs)) == IsStreaming(m)
    ensures NotifyAll(m, cs).startTime == LastSuccess(cs).GetOr(m.startTime)
    decreases |cs|
  {
    if |cs| > 0 {
      CallbacksKeepCamera(m, cs[..|cs| - 1]);
    }
  }

  /** While the camera streams, the duration after any callbacks counts from the last
      successful connection, or stays 0 when there was none and no earlier start. */
  lemma DurationAfterCallbacks(m: Manager, cs: seq<Callback>, now: int)
    requires IsStreaming(m)
    ensures LastSuccess(cs).Some? && LastSuccess(cs).value > 0 ==>
              StreamDuration(NotifyAll(m, cs), now) == TDiv(now - LastSuccess(cs).value, 1000)
    ensures LastSuccess(cs).None? && m.startTime <= 0 ==> StreamDuration(NotifyAll(m, cs), now) == 0
  {
    CallbacksKeepCamera(m, cs);
  }

  // ---------------------------------------------------------------------------
  // Commands
  // ---------------------------------------------------------------------------

  /** `configure(config)`. */
  function Configure(m: Manager, config: StreamConfig): (r: Manager)
    ensures r.config == config && r.(config := m.config) == m
  {
    m.(config := config)
  }

  /** The outcome of `startStreaming`: the manager after it, the value returned, and the URL
      handed to the camera's `startStream`, if the call got that far. */
  datatype StartResult = StartResult(manager: Manager, started: bool, url: Option<string>)

  /** `startStreaming(rtmpUrl, streamKey)`; a `None` argument falls back to the current
      configuration. */
  function StartStreaming(m: Manager, rtmpUrl: Option<string>, streamKey: Option<string>): (r: StartResult)
    // no camera: refused, with an error message
    ensures m.camera.None? ==>
              r == StartResult(m.(error := Some("Cámara no inicializada")), false, None)
    // already streaming: accepted, nothing changes
    ensures IsStreaming(m) ==> r == StartResult(m, true, None)
    // the encoders cannot be prepared: refused, the stream state untouched
    ensures m.camera.Some? && !m.camera.value.isStreaming && !m.camera.value.prepareSucceeds ==>
              && !r.started && r.url.None? && r.manager.state == m.state
              && r.manager == m.(error := Some("Error al preparar el encoder de video/audio"))
    // otherwise the camera is asked to stream to `url/key`
    ensures m.camera.Some? && !m.camera.value.isStreaming && m.camera.value.prepareSucceeds ==>
              r.url == Some(rtmpUrl.GetOr(m.config.rtmpUrl) + "/" + streamKey.GetOr(m.config.streamKey))
    ensures r.url.Some? ==>
              && (r.started <==> m.camera.value.startFailure.None?)
              && (r.started ==> r.manager.state == Preparing && IsStreaming(r.manager))
              && (!r.started ==>
                    && r.manager.state == Error && !IsStreaming(r.manager)
                    && r.manager.error == Some("Error al conectar: " + m.camera.value.startFailure.value))
    ensures r.started ==> IsStreaming(r.manager)
    // a start that reaches the camera changes only the state and the camera's stream flag,
    // or, when the camera throws, only the state and the error message
    ensures r.url.Some? && r.started ==>
              r.manager == m.(state := Preparing, camera := Some(m.camera.value.(isStreaming := true)))
    ensures r.url.Some? && !r.started ==>
              r.manager == m.(state := Error,
                              error := Some("Error al conectar: " + m.camera.value.startFailure.value))
    ensures r.manager.config == m.config && r.manager.stats == m.stats
    ensures r.manager.startTime == m.startTime
  {
    match m.camera
    case None => StartResult(m.(error := Some("Cámara no inicializada")), false, None)
    case Some(camera) =>
      if camera.isStreaming then StartResult(m, true, None)
      else if !camera.prepareSucceeds then
        StartResult(m.(error := Some("Error al preparar el encoder de video/audio")), false, None)
      else
        var url := rtmpUrl.GetOr(m.config.rtmpUrl) + "/" + streamKey.GetOr(m.config.streamKey);
        match camera.startFailure
        case Some(msg) =>
          StartResult(m.(state := Error, error := Some("Error al conectar: " + msg)), false, Some(url))
        case None =>
          StartResult(m.(state := Preparing, camera := Some(camera.(isStreaming := true))), true, Some(url))
  }

  /** With neither argument given, the stream goes to the configuration's own full URL. */
  lemma StartUsesConfigUrl(m: Manager)
    requires m.camera.Some? && !m.camera.value.isStreaming && m.camera.value.prepareSucceeds
    ensures StartStreaming(m, None, None).url == Some(FullRtmpUrl(m.config))
  {}

  /** A configuration installed before an otherwise successful start decides the URL the
      camera streams to when no override is given. */
  lemma ConfigureThenStart(m: Manager, config: StreamConfig)
    requires m.camera.Some? && !m.camera.value.isStreaming && m.camera.value.prepareSucceeds
    ensures StartStreaming(Configure(m, config), None, None).url == Some(FullRtmpUrl(config))
    ensures StartStreaming(Configure(m, config), None, None).manager.config == config
  {}

  /** `stopStreaming()`: acts only on a streaming camera, which it stops, resetting the state
      to STOPPED and the statistics to their defaults. */
  function StopStreaming(m: Manager): (r: Manager)
    ensures !IsStreaming(m) ==> r == m
    ensures IsStreaming(m) ==>
              && r.state == Stopped && r.stats == DefaultStats
              && r.camera == Some(m.camera.value.(isStreaming := false))
              && r.error == m.error && r.config == m.config && r.startTime == m.startTime
    ensures !IsStreaming(r)
  {
    if IsStreaming(m) then
      m.(camera := Some(m.camera.value.(isStreaming := false)), state := Stopped, stats := DefaultStats)
    else m
  }

  /** Stopping twice is stopping once. */
  lemma StopIdempotent(m: Manager)
    ensures StopStreaming(StopStreaming(m)) == StopStreaming(m)
  {}

  /** A successful start followed by a stop leaves a stopped, non-streaming manager with
      default statistics, whatever the manager was before. */
  lemma StartThenStop(m: Manager, rtmpUrl: Option<string>, streamKey: Option<string>)
    requires StartStreaming(m, rtmpUrl, streamKey).started
    ensures var s := StopStreaming(StartStreaming(m, rtmpUrl, streamKey).manager);
            && s.state == Stopped && s.stats == DefaultStats && !IsStreaming(s)
  {}

  /** `stopPreview()`. */
  function StopPreview(m: Manager): (r: Manager)
    ensures r.camera.Some? ==> !r.camera.value.isOnPreview
    ensures r.(camera := m.camera) == m
    ensures m.camera.Some? ==> r.camera == Some(m.camera.value.(isOnPreview := false))
    ensures m.camera.None? ==> r == m
  {
    match m.camera
    case Some(camera) => if camera.isOnPreview then m.(camera := Some(camera.(isOnPreview := false))) else m
    case None => m
  }

  /** Stopping the preview twice is stopping it once, and it never starts or stops the
      stream. */
  lemma StopPreviewIdempotent(m: Manager)
    ensures StopPreview(StopPreview(m)) == StopPreview(m)
    ensures IsStreaming(StopPreview(m)) == IsStreaming(m)
    ensures IsAudioMuted(StopPreview(m)) == IsAudioMuted(m)
  {}

  /** `toggleMute()`: the returned value is the new muted flag, `false` without a camera. */
  function ToggleMute(m: Manager): (r: (Manager, bool))
    ensures m.camera.None? ==> r == (m, false)
    ensures m.camera.Some? ==> r.1 == !m.camera.value.isAudioMuted && IsAudioMuted(r.0) == r.1
    ensures m.camera.Some? ==> r.0 == m.(camera := Some(m.camera.value.(isAudioMuted := r.1)))
  {
    match m.camera
    case None => (m, false)
    case Some(camera) =>
      if camera.isAudioMuted then (m.(camera := Some(camera.(isAudioMuted := false))), false)
      else (m.(camera := Some(camera.(isAudioMuted := true))), true)
  }

  /** Toggling the microphone twice restores the manager. */
  lemma ToggleMuteTwice(m: Manager)
    ensures ToggleMute(ToggleMute(m).0).0 == m
  {}

  /** `getStreamDuration()` at time `now`: whole seconds since the recorded start, rounded
      toward zero as Kotlin's `Long` division does, or 0 when there is no start time or no
      stream. */
  function StreamDuration(m: Manager, now: int): (d: int)
    ensures !(m.startTime > 0 && IsStreaming(m)) ==> d == 0
    ensures m.startTime > 0 && IsStreaming(m) && now >= m.startTime ==>
              d * 1000 <= now - m.startTime < (d + 1) * 1000
    ensures now <= m.startTime ==> d <= 0
    // a clock behind the start time counts down, also rounded toward zero
    ensures m.startTime > 0 && IsStreaming(m) && now < m.startTime ==>
              (-d) * 1000 <= m.startTime - now < (-d + 1) * 1000
  {
    if m.startTime > 0 && IsStreaming(m) then TDiv(now - m.startTime, 1000) else 0
  }

  /** Once the connection succeeds at a positive time `t` on a streaming camera, the duration
      counts the whole seconds elapsed since `t`. */
  lemma DurationSinceSuccess(m: Manager, t: int, elapsed: nat)
    requires t > 0 && IsStreaming(m)
    ensures StreamDuration(OnConnectionSuccess(m, t), t + elapsed) == elapsed / 1000
  {}

  /** `release()`: stop streaming, stop the preview, drop the camera, back to IDLE. */
  function Release(m: Manager): (r: Manager)
    ensures r.camera.None? && r.state == Idle && !IsStreaming(r)
    ensures IsStreaming(m) ==> r.stats == DefaultStats
    ensures !IsStreaming(m) ==> r.stats == m.stats
    ensures r.error == m.error && r.config == m.config && r.startTime == m.startTime
  {
    StopPreview(StopStreaming(m)).(camera := None, state := Idle)
  }

  /** Releasing twice is releasing once; afterwards starting is refused for lack of a
      camera. */
  lemma ReleaseFinal(m: Manager, rtmpUrl: Option<string>, streamKey: Option<string>)
    ensures Release(Release(m)) == Release(m)
    ensures !StartStreaming(Release(m), rtmpUrl, streamKey).started
    ensures StreamDuration(Release(m), 0) == 0
  {}
}

=== FILE: streaming_screen.dfy ===
/**
 The bookkeeping of the Android streaming screen (StreamingScreen.kt): which preset a
 quality name selects, the 30-sample history windows behind the dashboard charts, what the
 screen does when the stream state changes, the start/stop button, and its private copy of
 the duration formatter.

 A history sample is a Kotlin `Float`; the windows are generic in their element type, since
 nothing here depends on the values. The one-second ticks of the refresh loop are explicit
 calls of `Tick`.
 */
module Screen {
  import opened Runtime
  import opened Config
  import Manager
  import Chat
  import Dashboard
  import Theme

  /** The length of each history window. */
  const HistoryLength := 30

  // ---------------------------------------------------------------------------
  // Quality selection
  // ---------------------------------------------------------------------------

  /** The name a quality level is stored under. */
  function QualityName(q: Quality): string {
    match q
    case Low => "LOW"
    case Medium => "MEDIUM"
    case High => "HIGH"
    case Ultra => "ULTRA"
  }

  /** The quality a stored name selects: one of the four names, anything else the high
      preset. */
  function QualityOf(name: string): (q: Quality)
    ensures name == "LOW" ==> q == Low
    ensures name == "MEDIUM" ==> q == Medium
    ensures name == "ULTRA" ==> q == Ultra
    ensures name !in {"LOW", "MEDIUM", "ULTRA"} ==> q == High
  {
    if name == "LOW" then Low
    else if name == "MEDIUM" then Medium
    else if name == "HIGH" then High
    else if name == "ULTRA" then Ultra
    else High
  }

  /** The configuration the screen hands to the stream manager for the selected quality. */
  function SelectConfig(name: string): (c: StreamConfig)
    ensures c == Preset(QualityOf(name))
    ensures c.rtmpUrl == Config.DefaultRtmpUrl && c.streamKey == Config.DefaultStreamKey
  {
    Preset(QualityOf(name))
  }

  /** Every level's own name selects its preset. */
  lemma SelectByName(q: Quality)
    ensures QualityOf(QualityName(q)) == q
    ensures SelectConfig(QualityName(q)) == Preset(q)
  {}

  /** Any name that is not one of the four (lower case, surrounding spaces, the empty string)
      selects the high preset, which is also the default configuration. */
  lemma UnknownNameSelectsHigh(name: string)
    requires forall q :: name != QualityName(q)
    ensures SelectConfig(name) == Preset(High) == Config.Default
  {
    assert name != QualityName(Low) && name != QualityName(Medium) && name != QualityName(Ultra);
  }

  /** A quality stored in the preferences selects its preset, and an untouched store selects
      the high one. */
  lemma StoredQualitySelects(p: Theme.Prefs, q: Quality)
    ensures SelectConfig(Theme.Text(Theme.SetQuality(p, QualityName(q)), Theme.Quality)) == Preset(q)
    ensures SelectConfig(Theme.Text(Theme.Unset, Theme.Quality)) == Preset(High)
  {
    SelectByName(q);
    SelectByName(High);
  }

  // ---------------------------------------------------------------------------
  // History windows
  // ---------------------------------------------------------------------------

  /** One history update: the new sample goes at the end and only the last 30 are kept. */
  function Push<T>(history: seq<T>, sample: T): (r: seq<T>)
    ensures 0 < |r| == Min(|history| + 1, HistoryLength)
    ensures r[|r| - 1] == sample
    ensures |history| < HistoryLength ==> r == history + [sample]
    ensures |history| >= HistoryLength ==> r == TakeLast(history, HistoryLength)[1..] + [sample]
  {
    TakeLastSnoc(history, sample, HistoryLength);
    TakeLast(history + [sample], HistoryLength)
  }

  /** The window after pushing `samples`, one by one, onto an empty history. */
  function Pushed<T>(samples: seq<T>): seq<T>
    decreases |samples|
  {
    if |samples| == 0 then [] else Push(Pushed(samples[..|samples| - 1]), samples[|samples| - 1])
  }

  /** A window is always the latest 30 samples, in the order they were taken. */
  lemma {:induction false} PushedKeepsLatest<T>(samples: seq<T>)
    ensures Pushed(samples) == TakeLast(samples, HistoryLength)
    decreases |samples|
  {
    if |samples| > 0 {
      var init := samples[..|samples| - 1];
      var x := samples[|samples| - 1];
      PushedKeepsLatest(init);
      assert Pushed(samples) == TakeLast(TakeLast(init, HistoryLength) + [x], HistoryLength);
      TakeLastOfWindow(samples, HistoryLength);
    }
  }

  /** The screen's duration counter and the two windows. */
  datatype Telemetry<T> = Telemetry(duration: int, bitrates: seq<T>, viewers: seq<T>)

  /** The state after leaving the STREAMING state, and before ever reaching it. */
  function Cleared<T>(): Telemetry<T> {
    Telemetry(0, [], [])
  }

  /** The refresh effect keyed on the stream state: outside STREAMING the counter is 0 and
      both windows are empty; on entering STREAMING nothing is reset, the ticks take over. */
  function OnStreamState<T>(t: Telemetry<T>, state: StreamState): (r: Telemetry<T>)
    ensures state != Streaming ==> r.duration == 0 && r.bitrates == [] && r.viewers == []
    ensures state == Streaming ==> r == t
  {
    if state == Streaming then t else Cleared()
  }

  /** One second of the loop while streaming: the counter is re-read from the manager at time
      `now`, and one bitrate and one viewer sample are pushed. */
  function Tick<T>(t: Telemetry<T>, m: Manager.Manager, now: int, bitrate: T, viewers: T): (r: Telemetry<T>)
    ensures r.duration == Manager.StreamDuration(m, now)
    ensures r.bitrates == Push(t.bitrates, bitrate) && r.viewers == Push(t.viewers, viewers)
    ensures 0 < |r.bitrates| <= HistoryLength && r.bitrates[|r.bitrates| - 1] == bitrate
    ensures 0 < |r.viewers| <= HistoryLength && r.viewers[|r.viewers| - 1] == viewers
    ensures |t.bitrates| < HistoryLength ==> r.bitrates == t.bitrates + [bitrate]
    ensures |t.viewers| < HistoryLength ==> r.viewers == t.viewers + [viewers]
  {
    Telemetry(Manager.StreamDuration(m, now), Push(t.bitrates, bitrate), Push(t.viewers, viewers))
  }

  /** The two windows always hold the same number of samples, since every tick pushes one onto
      each and every reset empties both. */
  ghost predicate InStep<T>(t: Telemetry<T>) {
    |t.bitrates| == |t.viewers| <= HistoryLength
  }

  lemma TelemetryInStep<T>(t: Telemetry<T>, m: Manager.Manager, now: int, b: T, v: T, state: StreamState)
    requires InStep(t)
    ensures InStep(Tick(t, m, now, b, v))
    ensures InStep(OnStreamState(t, state))
  {}

  // ---------------------------------------------------------------------------
  // Stream state and the chat
  // ---------------------------------------------------------------------------

  /** The chat effect keyed on the stream state: on STREAMING the chat takes the screen's
      username (blank meaning the default) and joins the screen's stream key. */
  function OnStreamStateChat(chat: Chat.ChatState, state: StreamState, username: string, streamKey: string)
    : (r: Chat.ChatStep)
    ensures state != Streaming ==> r == Chat.ChatStep(chat, [])
    ensures state == Streaming ==>
              && r.state.streamKey == streamKey
              && r.state.username == IfBlank(username, Chat.DefaultUsername)
              && r.state.messages == chat.messages
              && r.state.viewerInfo == chat.viewerInfo
              && r.sent == [Chat.JoinStream(streamKey)]
  {
    if state == Streaming then Chat.Join(Chat.SetUsername(chat, username), streamKey)
    else Chat.ChatStep(chat, [])
  }

  // ---------------------------------------------------------------------------
  // Start / stop
  // ---------------------------------------------------------------------------

  /** The outcome of one press of the start/stop button. */
  datatype Press = Press(manager: Manager.Manager, chat: Chat.ChatState, sent: seq<Chat.Request>,
                         url: Option<string>)

  /** The start/stop button: a streaming manager is stopped and the chat leaves the screen's
      stream key; otherwise the selected configuration is installed and a stream to
      `rtmpUrl/streamKey` is attempted. */
  function StartStop(m: Manager.Manager, chat: Chat.ChatState, config: StreamConfig,
                     rtmpUrl: string, streamKey: string): (r: Press)
    ensures Manager.IsStreaming(m) ==>
              && r.manager == Manager.StopStreaming(m) && !Manager.IsStreaming(r.manager)
              && r.manager.state == Stopped && r.manager.stats == DefaultStats
              && r.chat == chat && r.sent == [Chat.LeaveStream(streamKey)] && r.url.None?
    ensures !Manager.IsStreaming(m) ==>
              r.manager == Manager.StartStreaming(Manager.Configure(m, config), Some(rtmpUrl),
                                                  Some(streamKey)).manager
    ensures !Manager.IsStreaming(m) ==>
              && r.manager.config == config && r.chat == chat && r.sent == []
              && r.manager.startTime == m.startTime
    ensures !Manager.IsStreaming(m) && m.camera.Some? && m.camera.value.prepareSucceeds ==>
              && r.url == Some(rtmpUrl + "/" + streamKey)
              && (Manager.IsStreaming(r.manager) <==> m.camera.value.startFailure.None?)
    ensures !Manager.IsStreaming(m) && m.camera.None? ==>
              r.manager.error == Some("Cámara no inicializada") && r.url.None?
  {
    if Manager.IsStreaming(m) then
      var leave := Chat.Leave(chat, streamKey);
      Press(Manager.StopStreaming(m), leave.state, leave.sent, None)
    else
      var start := Manager.StartStreaming(Manager.Configure(m, config), Some(rtmpUrl), Some(streamKey));
      Press(start.manager, chat, [], start.url)
  }

  /** Reaching STREAMING joins the chat room of the screen's key, and the press that then
      stops the stream leaves that same room: the chat requests pair up. */
  lemma ChatJoinThenStopLeaves(m: Manager.Manager, chat: Chat.ChatState, username: string,
                               config: StreamConfig, rtmpUrl: string, streamKey: string)
    requires Manager.IsStreaming(m)
    ensures var j := OnStreamStateChat(chat, Streaming, username, streamKey);
            var p := StartStop(m, j.state, config, rtmpUrl, streamKey);
            && j.sent + p.sent == [Chat.JoinStream(streamKey), Chat.LeaveStream(streamKey)]
            && p.chat.streamKey == streamKey
            && !Manager.IsStreaming(p.manager)
  {}

  /** A press that starts the stream, followed by a second press, stops it again and leaves
      the chat room of the same key: the button alternates. */
  lemma PressTwice(m: Manager.Manager, chat: Chat.ChatState, config: StreamConfig,
                   rtmpUrl: string, streamKey: string)
    requires !Manager.IsStreaming(m) && m.camera.Some?
    requires m.camera.value.prepareSucceeds && m.camera.value.startFailure.None?
    ensures var first := StartStop(m, chat, config, rtmpUrl, streamKey);
            var second := StartStop(first.manager, first.chat, config, rtmpUrl, streamKey);
            && Manager.IsStreaming(first.manager)
            && first.manager.config == config
            && !Manager.IsStreaming(second.manager) && second.manager.state == Stopped
            && second.manager.config == config
            && first.sent + second.sent == [Chat.LeaveStream(streamKey)]
  {}

  // ---------------------------------------------------------------------------
  // Duration text
  // ---------------------------------------------------------------------------

  /** The screen's own `formatDuration`, written out as in its file; it is the dashboard's
      function. */
  function FormatDuration(seconds: int): (s: string)
    ensures s == Dashboard.FormatDuration(seconds)
  {
    var hours := TDiv(seconds, 3600);
    var minutes := TDiv(TMod(seconds, 3600), 60);
    var secs := TMod(seconds, 60);
    if hours > 0 then Pad2(hours) + ":" + Pad2(minutes) + ":" + Pad2(secs)
    else Pad2(minutes) + ":" + Pad2(secs)
  }
}

=== FILE: theme.dfy ===
/**
 The persisted preferences of the Android app (ThemeManager.kt). The DataStore is a map from
 typed keys to values; a read of an unset key yields that key's default, and every edit
 writes exactly one key.
 */
module Theme {
  import opened Runtime

  /** The boolean preferences: `dark_mode`, `notifications_enabled`, `pip_enabled`,
      `theater_mode`. */
  datatype FlagKey = DarkMode | Notifications | Pip | TheaterMode

  /** The string preferences: `username`, `stream_key`, `rtmp_url`, `quality`. */
  datatype TextKey = Username | StreamKey | RtmpUrl | Quality

  datatype Prefs = Prefs(flags: map<FlagKey, bool>, texts: map<TextKey, string>)

  /** A DataStore nothing has been written to yet. */
  const Unset := Prefs(map[], map[])

  const DefaultRtmpUrl := "rtmp://streamingpe.myvnc.com:1935/live"
  const DefaultStreamKey := "stream"
  const DefaultQuality := "HIGH"
  const DefaultUsername := "Android User"

  /** The value each flag reads as while unset. */
  function FlagDefault(k: FlagKey): bool {
    k != TheaterMode
  }

  /** The value each text reads as while unset. */
  function TextDefault(k: TextKey): string {
    match k
    case Username => DefaultUsername
    case StreamKey => DefaultStreamKey
    case RtmpUrl => DefaultRtmpUrl
    case Quality => DefaultQuality
  }

  /** The flows `isDarkMode`, `notificationsEnabled`, `pipEnabled`, `theaterMode`. */
  function Flag(p: Prefs, k: FlagKey): (b: bool)
    ensures k !in p.flags ==> b == FlagDefault(k)
    ensures k in p.flags ==> b == p.flags[k]
  {
    if k in p.flags then p.flags[k] else FlagDefault(k)
  }

  /** The flows `username`, `streamKey`, `rtmpUrl`, `quality`. */
  function Text(p: Prefs, k: TextKey): (s: string)
    ensures k !in p.texts ==> s == TextDefault(k)
    ensures k in p.texts ==> s == p.texts[k]
  {
    if k in p.texts then p.texts[k] else TextDefault(k)
  }

  /** An untouched store reads as dark mode on, notifications on, picture-in-picture on,
      theater mode off, and the default user, key, server and quality. */
  lemma UnsetDefaults()
    ensures Flag(Unset, DarkMode) && Flag(Unset, Notifications) && Flag(Unset, Pip)
    ensures !Flag(Unset, TheaterMode)
    ensures Text(Unset, Username) == "Android User" && Text(Unset, StreamKey) == "stream"
    ensures Text(Unset, RtmpUrl) == "rtmp://streamingpe.myvnc.com:1935/live"
    ensures Text(Unset, Quality) == "HIGH"
  {}

  /** Only `k` changes, everything else reads as before. */
  ghost predicate OnlyFlagChanged(p: Prefs, p': Prefs, k: FlagKey) {
    && p'.texts == p.texts
    && k in p'.flags
    && forall j :: j != k ==> Flag(p', j) == Flag(p, j) && (j in p'.flags <==> j in p.flags)
  }

  ghost predicate OnlyTextChanged(p: Prefs, p': Prefs, k: TextKey) {
    && p'.flags == p.flags
    && k in p'.texts
    && forall j :: j != k ==> Text(p', j) == Text(p, j) && (j in p'.texts <==> j in p.texts)
  }

  /** One `edit` storing a flag. */
  function PutFlag(p: Prefs, k: FlagKey, v: bool): (p': Prefs)
    ensures Flag(p', k) == v
    ensures OnlyFlagChanged(p, p', k)
  {
    p.(flags := p.flags[k := v])
  }

  /** One `edit` storing a text. */
  function PutText(p: Prefs, k: TextKey, v: string): (p': Prefs)
    ensures Text(p', k) == v
    ensures OnlyTextChanged(p, p', k)
  {
    p.(texts := p.texts[k := v])
  }

  /** `setDarkMode`, `setNotificationsEnabled`, `setPipEnabled`, `setTheaterMode`. */
  function SetFlag(p: Prefs, k: FlagKey, enabled: bool): (p': Prefs)
    ensures Flag(p', k) == enabled
    ensures OnlyFlagChanged(p, p', k)
  {
    PutFlag(p, k, enabled)
  }

  /** `toggleDarkMode` and `toggleTheaterMode`: store the negation of what the flag reads as,
      its default included. */
  function Toggle(p: Prefs, k: FlagKey): (p': Prefs)
    requires k == DarkMode || k == TheaterMode
    ensures Flag(p', k) == !Flag(p, k)
    ensures k !in p.flags ==> p'.flags[k] == !FlagDefault(k)
    ensures OnlyFlagChanged(p, p', k)
  {
    PutFlag(p, k, !Flag(p, k))
  }

  /** Toggling twice gives back what was read before (the key is then stored, even if it was
      unset). */
  lemma ToggleTwice(p: Prefs, k: FlagKey)
    requires k == DarkMode || k == TheaterMode
    ensures Flag(Toggle(Toggle(p, k), k), k) == Flag(p, k)
    ensures forall j :: Flag(Toggle(Toggle(p, k), k), j) == Flag(p, j)
    ensures Toggle(Toggle(p, k), k).texts == p.texts
  {}

  /** `setUsername`, `setStreamKey`, `setRtmpUrl`: a blank value stores the default. */
  function SetNonBlank(p: Prefs, k: TextKey, value: string): (p': Prefs)
    requires k != Quality
    ensures !IsBlank(value) ==> Text(p', k) == value
    ensures IsBlank(value) ==> Text(p', k) == TextDefault(k)
    ensures OnlyTextChanged(p, p', k)
  {
    PutText(p, k, IfBlank(value, TextDefault(k)))
  }

  /** After any of these setters, the username, stream key and server URL never read as
      blank, provided they did not before. */
  lemma SettersKeepTextsNonBlank(p: Prefs, k: TextKey, value: string)
    requires k != Quality
    requires forall j :: j != Quality ==> !IsBlank(Text(p, j))
    ensures forall j :: j != Quality ==> !IsBlank(Text(SetNonBlank(p, k, value), j))
  {
    assert !IsWhitespace(DefaultUsername[0]);
    assert !IsWhitespace(DefaultStreamKey[0]);
    assert !IsWhitespace(DefaultRtmpUrl[0]);
  }

  /** `setQuality`: any string is stored verbatim, valid quality name or not. */
  function SetQuality(p: Prefs, quality: string): (p': Prefs)
    ensures Text(p', Quality) == quality
    ensures OnlyTextChanged(p, p', Quality)
  {
    PutText(p, Quality, quality)
  }
}
